=== FILE: README.md ===
# bxgateway core in Dafny

A model of the sequential core of the bloXroute gateway. It has five parts.

- **The relay session** (`RelayConnection`, `RelayProperties`) handles the messages a relay sends:
  - `broadcast`: decompress a block, or register it for recovery and request its missing transactions with one `GetTxs`;
  - `tx`: check the double SHA-256, store the contents, retry recovered blocks, forward to the node;
  - `txassign`: run the base class's assignment, and act only when it reports a hash;
  - `txs`: first writer wins for short ids and for contents, then one retry;
  - the retry loop, which re-broadcasts recovered blocks in order and clears the list.

  The session state holds:
  - the shared short-id index;
  - the recovery service;
  - the node connection's network magic, when a node is connected;
  - two output logs: messages enqueued to the relay and byte strings sent to the node.
- **The short-id index** (`TxIndex`) models the Bitcoin transaction service:
  - `assign_short_id` with its mirror map (the map held by the C++ extension);
  - `_remove_transaction_by_short_id`. When a short id was its hash's last, removal purges the hash's set, its contents and its mirror entry. Its `KeyError` paths are modelled.
- **The lossy relay** (`LossyRelay`) is the test-mode wrapper that drops every 10th `tx` and every 3rd `txs` message. The wrapped session is left abstract.
- **The Ethereum message factory** (`EthMessageFactory`) is a state machine over the expected handshake message (`None`, `AUTH`, `AUTH_ACK`). That state drives header preview and message construction. The framed input buffer is an oracle.
- **The startup converters** (`GatewayMain`, on top of `PyText`):
  - `parse_peer_string` turns `ip:port,ip:port,...` into a list of peers;
  - `convert_net_magic` looks up a network name, or reads the magic as a decimal integer.

  `PyText` models what these rely on from Python's `str.split`, `str.strip`, `int()` and `str()` for integers.

Collaborators whose code is not part of this model are passed in as function-valued fields of `RelayConnection.Collaborators`:
- the block decompressor;
- the double SHA-256;
- the conversion of a relay transaction into node bytes;
- the base class's `msg_txassign`.

`BlockRecovery` is a stand-in for the shared library's recovery service. It models waiting blocks with the short ids and hashes they miss. Each check strikes an item from every waiting block. Completed blocks move, in waiting order, to the recovered list.

## Model

| member | source | states |
|---|---|---|
| TxIndex.GetTxid | src/bxgateway/connections/relay_connection.py:49-51 | `get_txid` is -1 exactly when the hash has no short id; otherwise it is one of the hash's short ids |
| TxIndex.AssignShortId | src/bxgateway/services/btc_transaction_service.py:11-14 | after assignment the short id maps to the hash; the hash's set gains it, and a hash that had no set gets exactly `{s}`; the mirror sends the hash to this most recently assigned id; no other short id, hash set, mirror entry or contents change |
| TxIndex.AssignPreservesConsistent | src/bxgateway/services/btc_transaction_service.py:11-14 | assignment keeps the index invariant (each short id's hash lists it, no empty sets) and keeps every hash with short ids mirrored |
| TxIndex.AssignPreservesTwoWay | src/bxgateway/services/btc_transaction_service.py:11-14 | assigning a fresh short id, or one already bound to the same hash, keeps hash sets the exact inverse of the short-id map |
| TxIndex.AssignIdempotent | src/bxgateway/services/btc_transaction_service.py:11-14 | assigning the same pair twice equals assigning it once |
| TxIndex.RebindLeavesStaleSid | src/bxgateway/services/btc_transaction_service.py:11-14 | rebinding a short id to a second hash leaves it in the first hash's set, so the two-way invariant is lost |
| TxIndex.RemoveTransactionByShortId | src/bxgateway/services/btc_transaction_service.py:16-30 | an absent short id changes nothing; afterwards the id is unbound; a last id purges the hash's set, contents and mirror entry; otherwise only the id leaves the set and contents stay; a hash with no set (possible only off the invariant) keeps its contents and mirror entry; other entries are untouched; under the invariant no `KeyError` is raised |
| TxIndex.RemovePreservesConsistent | src/bxgateway/services/btc_transaction_service.py:16-30 | removal succeeds and keeps the index invariant and mirror coverage |
| TxIndex.RemovePreservesTwoWay | src/bxgateway/services/btc_transaction_service.py:16-30 | removal keeps the two-way invariant |
| TxIndex.RemoveLastPurges | src/bxgateway/services/btc_transaction_service.py:22-28 | removing a hash's only short id leaves no short id, no contents, and `get_txid` answering -1 |
| BlockRecovery.AddBlockMsg | src/bxgateway/connections/relay_connection.py:43 | a block that failed to decompress is appended to the waiting blocks with its message, block hash, and the short ids and hashes it misses |
| BlockRecovery.CheckMissingSid | src/bxgateway/connections/relay_connection.py:81 | the short id is struck from every waiting block; each block this completes has its message appended to the recovered list, in waiting order, and leaves the waiting list; every other block keeps waiting; afterwards no waiting block misses the short id |
| BlockRecovery.CheckMissingTxHash | src/bxgateway/connections/relay_connection.py:70 | the hash is struck from every waiting block; each block this completes has its message appended to the recovered list, in waiting order, and leaves the waiting list; every other block keeps waiting; afterwards no waiting block misses the hash |
| BlockRecovery.Strike | src/bxgateway/connections/relay_connection.py:97-102 | one check: the waiting list becomes the struck blocks still missing something and the recovered list gains the messages of those now complete, both in waiting order; nothing is lost or duplicated (the two lengths add up); waiting blocks only lose missing items |
| BlockRecovery.Settle | src/bxgateway/connections/relay_connection.py:110-111 | the split behind `recovered_msgs`: the incomplete blocks and the messages of the complete ones, each in waiting order, with the two lengths adding up to the number of blocks |
| BlockRecovery.ShrunkKeepsNoneMiss | src/bxgateway/connections/relay_connection.py:97-102 | a short id or hash no waiting block misses stays missed by none once the waiting blocks have only lost missing items |
| BlockRecovery.CheckCompletingAllRecoversAll | src/bxgateway/connections/relay_connection.py:97-102 | a check (of a short id, a hash, or both) that completes every waiting block recovers all of them, in waiting order, and leaves none waiting |
| BlockRecovery.SidThenHashRecoversOnce | src/bxgateway/connections/relay_connection.py:97-102 | a lone block missing one short id and one hash keeps waiting after the short id's check and is recovered exactly once by the hash's check |
| BlockRecovery.HashThenSidRecoversOnce | src/bxgateway/connections/relay_connection.py:70-81 | in the other order too: after the hash's check the block keeps waiting, and the short id's check recovers it exactly once |
| BlockRecovery.CleanUp | src/bxgateway/connections/relay_connection.py:116 | the recovered list becomes empty and waiting blocks are kept |
| RelayConnection.Connect | src/bxgateway/connections/relay_connection.py:22-23 | a new session has sent exactly one relay message, a hello carrying the node index, and nothing to the node |
| RelayConnection.RequestedShortIds | src/bxgateway/connections/relay_connection.py:45-51 | the request lists the unknown short ids in order, then one entry per unknown hash, which is -1 exactly when that hash has no short id; the length is the sum of both counts |
| RelayConnection.MsgBroadcast | src/bxgateway/connections/relay_connection.py:36-56 | a decompressed block goes to the node with no recovery entry and no request; otherwise the message is registered once and exactly one `GetTxs` with the requested ids is enqueued; the index is untouched |
| RelayConnection.BroadcastAll | src/bxgateway/connections/relay_connection.py:111-113 | broadcasting n messages sends exactly n messages, keeps the index and only extends the logs |
| RelayConnection.Retry | src/bxgateway/connections/relay_connection.py:109-116 | with no recovered messages nothing changes; otherwise one message per recovered block is sent and the recovered list ends empty |
| RelayConnection.MsgTx | src/bxgateway/connections/relay_connection.py:60-75 | a hash mismatch changes nothing; a valid tx stores its contents (no other contents or maps change), clears the recovered list, keeps waiting every block the hash's check left waiting, and sends one message per recovered block, plus the tx last when a node is connected |
| RelayConnection.MsgTxAssign | src/bxgateway/connections/relay_connection.py:77-84 | the base assignment's hash is returned unchanged, and its index is kept; with no hash nothing else happens; with one, the blocks the short id's check leaves waiting keep waiting, the recovered list ends empty, and exactly one message is sent per block on the list after that check |
| RelayConnection.AcceptTxsEntry | src/bxgateway/connections/relay_connection.py:95-105 | recovery becomes exactly the short id's check followed by the hash's check, so the blocks these complete are recovered and the others keep waiting; the short id is assigned only to a hash with none; contents are written only when absent; afterwards the hash has both; nothing is sent |
| RelayConnection.AcceptTxsEntries | src/bxgateway/connections/relay_connection.py:93-105 | the triples send nothing; their effect on recovery is exactly the checks of their short ids and hashes in order, whatever the index updates do |
| RelayConnection.MsgTxs | src/bxgateway/connections/relay_connection.py:86-107 | after the triples one retry runs: exactly one message per block on the recovered list after their checks, the blocks those checks left waiting keep waiting, and the recovered list ends empty |
| RelayProperties.TxAssignForwardsRecovered | src/bxgateway/connections/relay_connection.py:77-84 | with a reported hash, every block on the recovered list after the short id's check goes to the node in list order, nothing goes to the relay, and exactly the blocks the check left waiting still wait |
| RelayProperties.TxsForwardsRecovered | src/bxgateway/connections/relay_connection.py:93-107 | after the triples, every block on the recovered list goes to the node in list order, nothing goes to the relay, and exactly the blocks the triples' checks left waiting still wait |
| RelayProperties.TxsRecoversLoneBlock | src/bxgateway/connections/relay_connection.py:97-102 | a triple answering a lone block that misses exactly its short id and hash recovers that block once |
| RelayProperties.TxsAnswerForwardsLoneBlock | src/bxgateway/connections/relay_connection.py:93-107 | the `txs` answer to a lone block's request forwards that block to the node once, sends nothing to the relay, and leaves recovery empty |
| RelayConnection.Dispatch | src/bxgateway/connections/relay_connection.py:26-33 | every handler keeps the node connection and only appends to the output logs; which handler each message reaches is shown end to end by the three `BroadcastThen…` lemmas |
| RelayProperties.BroadcastThenTxForwardsBoth | src/bxgateway/connections/relay_connection.py:26-75 | on a fresh session, `broadcast` of a block missing only one transaction's hash, then that `tx`: the relay gets the hello and one request for the hash, the node gets the block and then the tx, and nothing is left waiting |
| RelayProperties.BroadcastThenTxAssignForwards | src/bxgateway/connections/relay_connection.py:26-84 | on a fresh session, `broadcast` of a block missing only one short id, then a `txassign` of that id for which the base class reports a hash: the node gets the block once, the relay only the hello and the request, and nothing is left waiting |
| RelayProperties.BroadcastThenTxsForwards | src/bxgateway/connections/relay_connection.py:26-107 | on a fresh session, `broadcast` of a block missing one short id and its hash, then a `txs` answer with that triple: the node gets the block once, the relay only the hello and the request, and nothing is left waiting |
| RelayProperties.TxAnswerForwardsLoneBlock | src/bxgateway/connections/relay_connection.py:60-75 | the valid `tx` a lone block waits for by hash sends the block and then the tx to the node, nothing to the relay, and leaves recovery empty |
| RelayProperties.TxAssignAnswerForwardsLoneBlock | src/bxgateway/connections/relay_connection.py:77-84 | a `txassign` of the only short id a lone block waits for, with a reported hash, sends that block to the node once, nothing to the relay, and leaves recovery empty |
| RelayConnection.Run | src/bxgateway/connections/relay_connection.py:26-33 | handling messages in arrival order only appends to the output logs |
| RelayProperties.DispatchTableMatchesMessages | src/bxgateway/connections/relay_connection.py:26-33 | the dispatch table names exactly `hello`, `ack`, `broadcast`, `txassign`, `tx` and `txs`: every message has a handler and every handler a message |
| RelayProperties.HelloIsFirst | src/bxgateway/connections/relay_connection.py:22-23 | whatever arrives later, the first relay message of a session is its hello |
| RelayProperties.BroadcastAllForwardsInOrder | src/bxgateway/connections/relay_connection.py:36-41 | messages that all decompress send their blocks to the node in message order and nothing to the relay |
| RelayProperties.RetryForwardsInOrder | src/bxgateway/connections/relay_connection.py:109-116 | the retry loop sends the recovered blocks in list order and then clears the list |
| RelayProperties.ValidTxForwardsBlocksThenTx | src/bxgateway/connections/relay_connection.py:67-75 | for a valid tx, contents are stored before recovery is checked; every message on the recovered list after the hash's check (those recovered earlier and those the tx completes, in list order) goes to the node as a block, then the tx when a node is connected; afterwards exactly the blocks the check left waiting still wait and nothing is left to retry |
| RelayProperties.TxsKeepsAssignments | src/bxgateway/connections/relay_connection.py:99-100 | `txs` never changes the short ids of a hash that already had one |
| RelayProperties.TxsKeepsContents | src/bxgateway/connections/relay_connection.py:104-105 | `txs` never overwrites stored contents |
| RelayProperties.TxsFirstTripleWins | src/bxgateway/connections/relay_connection.py:93-105 | the first triple naming a hash decides: a hash with no short id ends with exactly that triple's id, and a hash with no contents ends with that triple's contents |
| RelayProperties.TxsCoversEveryTriple | src/bxgateway/connections/relay_connection.py:93-105 | every hash named in a `txs` message ends with a short id and contents |
| RelayProperties.TxsFirstWriterWins | src/bxgateway/connections/relay_connection.py:86-107 | for the whole `msg_txs`, existing short ids and contents are kept and every named hash ends with both |
| RelayProperties.TxsStrikesEveryTriple | src/bxgateway/connections/relay_connection.py:95-102 | afterwards no waiting block misses any short id or hash named in the message, and waiting blocks only lose missing items |
| RelayProperties.TxsPreservesConsistent | src/bxgateway/connections/relay_connection.py:93-105 | the triples of `txs` keep the index invariant and mirror coverage |
| RelayProperties.DispatchPreservesConsistent | src/bxgateway/connections/relay_connection.py:26-33 | every handler keeps the index invariant; for `txassign` this holds when the base assignment keeps it |
| LossyRelay.NewCounters | src/bxgateway/testing/lossy_relay_connection.py:11-13 | all three counters start at zero |
| LossyRelay.Call | src/bxgateway/testing/lossy_relay_connection.py:15-24 | a call drops its message exactly when the bumped counter is a positive multiple of the period, and otherwise delegates it once; the other counters are unchanged |
| LossyRelay.MsgTx | src/bxgateway/testing/lossy_relay_connection.py:15-24 | `msg_tx` keeps the tx counter in 0..9 and never changes the other two counters |
| LossyRelay.MsgTxs | src/bxgateway/testing/lossy_relay_connection.py:26-34 | `msg_txs` keeps the txs counter in 0..2 and never changes the other two counters |
| LossyRelay.CounterAfterRun | src/bxgateway/testing/lossy_relay_connection.py:17-21 | after n calls on a channel from a fresh wrapper, its counter is n modulo the period and the others are zero |
| LossyRelay.KthCallDrops | src/bxgateway/testing/lossy_relay_connection.py:15-24 | the k-th call since construction is dropped exactly when k is a multiple of the period (10 for `tx`, 3 for `txs`) |
| LossyRelay.RunDelegatesSurvivors | src/bxgateway/testing/lossy_relay_connection.py:15-24 | a run delegates exactly the messages at positions that are not multiples of the period, each once, in order |
| LossyRelay.SurvivorCount | src/bxgateway/testing/lossy_relay_connection.py:26-34 | of n messages, n - n / period survive |
| LossyRelay.DelegatedCount | src/bxgateway/testing/lossy_relay_connection.py:17-24 | over n calls from a fresh wrapper, exactly n - n / 10 `tx` (or n - n / 3 `txs`) messages are delegated |
| EthMessageFactory.New | src/bxgateway/messages/eth/protocol/eth_protocol_message_factory.py:39-52 | construction fails with `TypeError` exactly for a non-cipher argument; a new factory expects nothing |
| EthMessageFactory.SetExpectedMsgType | src/bxgateway/messages/eth/protocol/eth_protocol_message_factory.py:54-58 | only `AUTH` and `AUTH_ACK` are accepted; anything else raises `ValueError` and changes nothing |
| EthMessageFactory.ResetExpectedMsgType | src/bxgateway/messages/eth/protocol/eth_protocol_message_factory.py:60-61 | afterwards the factory expects nothing |
| EthMessageFactory.GetMessageHeaderPreview | src/bxgateway/messages/eth/protocol/eth_protocol_message_factory.py:63-82 | expecting `AUTH`: full with the buffer length; expecting `AUTH_ACK`: full with 210 exactly when 210 bytes are buffered; expecting nothing: full with the framed command and 0 exactly when the framed buffer says so; otherwise `(False, None, None)` |
| EthMessageFactory.CreateMessageFromBuffer | src/bxgateway/messages/eth/protocol/eth_protocol_message_factory.py:84-99 | a handshake yields the raw bytes; otherwise a non-empty buffer raises `ParseError`, and a message is built exactly when the framed command is one of the mapped types |
| EthMessageFactory.OpsKeepWellFormed | src/bxgateway/messages/eth/protocol/eth_protocol_message_factory.py:54-61 | any sequence of set/reset calls leaves the factory expecting nothing, `AUTH` or `AUTH_ACK`, with the same cipher |
| EthMessageFactory.PreviewAgreesWithCreate | src/bxgateway/messages/eth/protocol/eth_protocol_message_factory.py:63-99 | a full handshake preview names the expected command and a length the buffer holds, and the bytes of that length are built raw; after the handshake, with the buffer drained, a previewed framed message is built exactly when its command is mapped |
| EthMessageFactory.MappingExcludesHandshake | src/bxgateway/messages/eth/protocol/eth_protocol_message_factory.py:24-37 | the mapping holds only the named devp2p commands and neither handshake type |
| PyText.Split | src/bxgateway/main.py:39 | a split has at least one piece |
| PyText.SplitCharacterised | src/bxgateway/main.py:39 | the split is exactly the one list of at least one separator-free piece that joins back to the string |
| PyText.SplitPiecesNoSep | src/bxgateway/main.py:39 | no piece of a split contains the separator |
| PyText.JoinSplit | src/bxgateway/main.py:39 | joining the pieces of a split with the separator gives the string back |
| PyText.SplitJoin | src/bxgateway/main.py:39 | splitting a join of separator-free pieces gives the pieces back |
| PyText.SplitAppendSep | src/bxgateway/main.py:39 | a trailing separator adds exactly one empty piece |
| PyText.StripLeft | src/bxgateway/main.py:41 | the result is a suffix that does not start with whitespace, and everything removed is whitespace |
| PyText.StripRight | src/bxgateway/main.py:41 | the result is a prefix that does not end with whitespace, and everything removed is whitespace |
| PyText.Strip | src/bxgateway/main.py:41 | the stripped text is no longer than the input and neither starts nor ends with whitespace |
| PyText.StripSlice | src/bxgateway/main.py:41 | the stripped text is one contiguous slice of the input, and only whitespace lies before and after it |
| PyText.StripUnchanged | src/bxgateway/main.py:41 | text without surrounding whitespace is its own `strip()` |
| PyText.ParseInt | src/bxgateway/main.py:43 | a string that parses is not blank once stripped |
| PyText.ParseIntShape | src/bxgateway/main.py:43 | what parses is, once stripped, an optional sign and then a decimal literal (a digit first and last, each underscore alone between two digits); a negative value needs a leading `-` |
| PyText.ParseIntLiteral | src/bxgateway/main.py:43 | any whitespace, then an optional `+` or `-`, then a decimal literal, then any whitespace, parses to the literal's value, negated exactly for `-`; with `PyText.ParseIntShape` this is everything `int` accepts |
| PyText.StripPadded | src/bxgateway/main.py:41 | `strip()` removes exactly the whitespace around a text that neither starts nor ends with whitespace |
| PyText.IntToString | src/bxgateway/main.py:43 | `str(n)` is non-empty, made of digits except for a leading `-`, which is there exactly when n is negative, and ends in a digit |
| PyText.ParseIntToString | src/bxgateway/main.py:43 | `int(str(n)) == n` for every integer |
| GatewayMain.ParsePeer | src/bxgateway/main.py:41-44 | a segment whose stripped text has no `:` raises `IndexError`; otherwise the ip is the text before the first `:` and the port is the integer between the first and second `:`, or `ValueError` |
| GatewayMain.PaddedPortParses | src/bxgateway/main.py:41-44 | whitespace between the `:` and the port number is accepted: `ip: 8333` names port 8333 |
| GatewayMain.NonEmpty | src/bxgateway/main.py:39-40 | exactly the non-empty segments are kept |
| GatewayMain.NonEmptyAppend | src/bxgateway/main.py:39-40 | the filter keeps order and multiplicity: it distributes over concatenation |
| GatewayMain.NonEmptySingle | src/bxgateway/main.py:39-40 | one segment is kept exactly when it is non-empty |
| GatewayMain.ParseEach | src/bxgateway/main.py:39-45 | the loop over the kept segments: success exactly when every segment parses, then one peer per segment in segment order; otherwise the error of the first segment that fails |
| GatewayMain.ParsePeerString | src/bxgateway/main.py:38-45 | the empty string gives the empty list |
| GatewayMain.TrailingCommaIgnored | src/bxgateway/main.py:39-40 | a trailing comma does not change the result |
| GatewayMain.BlankSegmentRaises | src/bxgateway/main.py:39-42 | a whitespace-only segment is not skipped: it raises `IndexError` |
| GatewayMain.ParseFormattedPeer | src/bxgateway/main.py:41-44 | parsing `ip:port` gives back the peer |
| GatewayMain.ParseFormattedPeers | src/bxgateway/main.py:34-45 | formatting peers as `ip:port,...` and parsing gives back the same peers in order |
| GatewayMain.ConvertNetMagic | src/bxgateway/main.py:23-27 | a known network name gives its table value; any other input gives its integer value, or `ValueError` |
| GatewayMain.NumericMagic | src/bxgateway/main.py:23-27 | a decimal magic that is not a network name converts to itself |

## Left out

- The base `TransactionService`: only the parts the gateway code uses are modelled, as stand-ins.
  - `TxIndex.AssignShortId` adds the short id to the hash's set and binds it. It does not detach a rebound short id from its previous hash.
  - Detaching a rebound short id from its old hash, and purging that hash when the id was its last, is not modelled: the base class's code is not part of this model. `TxIndex.RebindLeavesStaleSid` shows the consequence.
  - `TxIndex.GetTxid` picks the least short id of the hash. Callers rely only on "-1 exactly when none, otherwise a member".
  - Expiry queues, `assign_tx_to_sid`'s timestamp and every other base-class method are not modelled.
- The contents map: the relay session uses `hash_to_contents` (relay_connection.py:68,104), while the Bitcoin service deletes from `_tx_hash_to_contents` (btc_transaction_service.py:27). The model treats both as one map.
- RelayConnection.AcceptTxsEntry: `msg_txs` calls the base-class method `assign_tx_to_sid` (relay_connection.py:100), whose code is not part of this model. The model takes it to be `assign_short_id` (btc_transaction_service.py:11-14), so the mirror entry is written too.
- PyText.Split: its own contract promises only at least one piece. The full description of the result is in `PyText.SplitCharacterised`, which is kept out of the function's contract to keep the proofs that unfold `Split` small.
- PyText.ParseInt: its own contract promises only that parsed text is not blank. What it accepts is stated by `PyText.ParseIntShape`, and the value of every accepted text (any padding, any sign) by `PyText.ParseIntLiteral`.
- PyText.Strip: the slice-and-whitespace description is stated by `PyText.StripSlice`, not by the function's contract.
- BlockRecovery.AddBlockMsg: a block registered with nothing missing stays waiting until the next check of any short id or hash, which then recovers it. What the real service does in that case is not part of this model.
- The block recovery service is a stand-in. Eviction, timeouts, merging a block registered twice and the order of the recovered list beyond waiting order are not modelled.
- `time.time()` (relay_connection.py:100) is dropped. It feeds only base-class bookkeeping.
- `msg_hello` and `msg_ack` belong to the base connection class, whose code is not part of this model. They leave the modelled state unchanged. Unknown commands are handled by the base class and are not modelled.
- Collaborators passed in as functions:
  - the decompressor `broadcastmsg_to_block`;
  - SHA-256;
  - `tx_msg_to_btc_tx_msg`;
  - the base `msg_txassign`.
- Logging and concurrency between sessions are not modelled. Each handler runs to completion on an immutable state.
- The Ethereum factory:
  - `ENC_AUTH_ACK_MSG_LEN` is taken as 210, the length of an encrypted RLPx auth-ack without EIP-8 padding. `eth_constants` is not part of this model.
  - The framed input buffer and message class construction are oracles.
- `convert_net_magic`'s `BTC_MAGIC_NUMBERS` table is a parameter, because `btc_constants` is not part of this model.
- `PyText.ParseInt` accepts only ASCII digits. Python's `int()` also accepts other Unicode decimal digits.
- `get_opts`, argparse, `generate_default_nonce` and the `__main__` block of main.py are process startup.
- block_header.py (an RLP and keccak wrapper), the test mock gateway node and setup.py are not part of this model.
- Integer widths: counters, short ids and ports are unbounded integers, as in Python.

=== FILE: block_recovery.dfy ===
/**
 A stand-in for the block recovery service of the shared library. Its source
 is not part of this model; this module gives it the behaviour the relay
 handlers depend on and nothing more: blocks that failed to decompress wait
 with the short ids and hashes they miss, every check strikes the arriving
 piece from every waiting block, and blocks left missing nothing move, in
 waiting order, to the list of recovered messages. No eviction, timeout or
 merging of repeated blocks is modelled.
 */
module BlockRecovery {
  import opened Common
  import opened TxIndex

  datatype PendingBlock = PendingBlock(
    msg: Bytes,
    blockHash: Bytes,
    sids: set<ShortId>,
    hashes: set<TxHash>)

  datatype Recovery = Recovery(pending: seq<PendingBlock>, recovered: seq<Bytes>)

  const NoRecovery: Recovery := Recovery([], [])

  predicate Complete(p: PendingBlock) {
    p.sids == {} && p.hashes == {}
  }

  function SetOf<T(!new)>(xs: seq<T>): (r: set<T>)
    ensures forall x :: x in r <==> x in xs
  {
    set x | x in xs
  }

  /** `add_block_msg`: a block that failed to decompress starts waiting. */
  function AddBlockMsg(rec: Recovery, msg: Bytes, blockHash: Bytes,
                       sids: seq<ShortId>, hashes: seq<TxHash>): (r: Recovery)
    ensures r.recovered == rec.recovered
    ensures |r.pending| == |rec.pending| + 1 && r.pending[..|rec.pending|] == rec.pending
    ensures r.pending[|rec.pending|].msg == msg && r.pending[|rec.pending|].blockHash == blockHash
    ensures forall s :: s in r.pending[|rec.pending|].sids <==> s in sids
    ensures forall h :: h in r.pending[|rec.pending|].hashes <==> h in hashes
  {
    rec.(pending := rec.pending + [PendingBlock(msg, blockHash, SetOf(sids), SetOf(hashes))])
  }

  /** Every block waiting after the step was waiting before it, missing no
      more than it did then. */
  predicate Shrunk(before: Recovery, after: Recovery) {
    forall p :: p in after.pending ==>
      exists q :: q in before.pending && p.sids <= q.sids && p.hashes <= q.hashes
  }

  /** No waiting block misses the given short id or hash. */
  predicate NoneMiss(ps: seq<PendingBlock>, sid: Option<ShortId>, hash: Option<TxHash>) {
    forall i :: 0 <= i < |ps| ==>
      (sid.Some? ==> sid.value !in ps[i].sids) && (hash.Some? ==> hash.value !in ps[i].hashes)
  }

  /** What no waiting block misses stays missed by none once recovery has
      shrunk. */
  lemma ShrunkKeepsNoneMiss(before: Recovery, after: Recovery, sid: Option<ShortId>, hash: Option<TxHash>)
    requires Shrunk(before, after) && NoneMiss(before.pending, sid, hash)
    ensures NoneMiss(after.pending, sid, hash)
  {
    forall i | 0 <= i < |after.pending|
      ensures (sid.Some? ==> sid.value !in after.pending[i].sids)
           && (hash.Some? ==> hash.value !in after.pending[i].hashes)
    {
      var p := after.pending[i];
      assert p in after.pending;
      var q :| q in before.pending && p.sids <= q.sids && p.hashes <= q.hashes;
      var n :| 0 <= n < |before.pending| && before.pending[n] == q;
    }
  }

  /** A block once the arriving short id or hash is no longer missing. */
  function StrikeOne(p: PendingBlock, sid: Option<ShortId>, hash: Option<TxHash>): PendingBlock {
    p.(sids := if sid.Some? then p.sids - {sid.value} else p.sids,
       hashes := if hash.Some? then p.hashes - {hash.value} else p.hashes)
  }

  function StrikeAll(ps: seq<PendingBlock>, sid: Option<ShortId>, hash: Option<TxHash>): (r: seq<PendingBlock>)
    ensures |r| == |ps| && forall i :: 0 <= i < |ps| ==> r[i] == StrikeOne(ps[i], sid, hash)
  {
    seq(|ps|, i requires 0 <= i < |ps| => StrikeOne(ps[i], sid, hash))
  }

  /** The blocks still missing something, in waiting order. */
  function Waiting(ps: seq<PendingBlock>): (r: seq<PendingBlock>)
    ensures forall p :: p in r <==> p in ps && !Complete(p)
  {
    if ps == [] then []
    else if Complete(ps[0]) then Waiting(ps[1..])
    else [ps[0]] + Waiting(ps[1..])
  }

  /** The messages of the complete blocks, in waiting order. */
  function Finished(ps: seq<PendingBlock>): (r: seq<Bytes>)
    ensures forall i :: 0 <= i < |ps| && Complete(ps[i]) ==> ps[i].msg in r
  {
    if ps == [] then []
    else if Complete(ps[0]) then [ps[0].msg] + Finished(ps[1..])
    else Finished(ps[1..])
  }

  /** The messages of blocks, in order. */
  function Msgs(ps: seq<PendingBlock>): (r: seq<Bytes>)
    ensures |r| == |ps| && forall i :: 0 <= i < |ps| ==> r[i] == ps[i].msg
  {
    seq(|ps|, i requires 0 <= i < |ps| => ps[i].msg)
  }

  /** Splits waiting blocks into those still missing something and the
      messages of those now complete, both in waiting order. */
  function Settle(ps: seq<PendingBlock>): (r: (seq<PendingBlock>, seq<Bytes>))
    ensures |r.0| + |r.1| == |ps|
    ensures r.0 == Waiting(ps) && r.1 == Finished(ps)
  {
    if ps == [] then ([], [])
    else
      var rest := Settle(ps[1..]);
      if Complete(ps[0]) then (rest.0, [ps[0].msg] + rest.1)
      else ([ps[0]] + rest.0, rest.1)
  }

  /** Strikes the arriving piece from every waiting block; the blocks that
      become complete leave the waiting list and their messages are
      appended, in waiting order, to the recovered ones. */
  function Strike(rec: Recovery, sid: Option<ShortId>, hash: Option<TxHash>): (r: Recovery)
    ensures r.pending == Waiting(StrikeAll(rec.pending, sid, hash))
    ensures r.recovered == rec.recovered + Finished(StrikeAll(rec.pending, sid, hash))
    ensures |r.pending| + |r.recovered| == |rec.pending| + |rec.recovered|
    ensures forall i :: 0 <= i < |rec.pending| ==>
      var p := StrikeOne(rec.pending[i], sid, hash);
      if Complete(p) then p.msg in r.recovered[|rec.recovered|..] else p in r.pending
    ensures forall i :: 0 <= i < |r.pending| ==> !Complete(r.pending[i])
    ensures sid.Some? ==> forall i :: 0 <= i < |r.pending| ==> sid.value !in r.pending[i].sids
    ensures hash.Some? ==> forall i :: 0 <= i < |r.pending| ==> hash.value !in r.pending[i].hashes
    ensures Shrunk(rec, r)
  {
    var struck := StrikeAll(rec.pending, sid, hash);
    var settled := Settle(struck);
    var r := Recovery(settled.0, rec.recovered + settled.1);
    assert r.recovered[|rec.recovered|..] == settled.1;
    forall p | p in r.pending
      ensures exists q :: q in rec.pending && p.sids <= q.sids && p.hashes <= q.hashes
    {
      var j :| 0 <= j < |struck| && struck[j] == p;
      assert rec.pending[j] in rec.pending;
    }
    r
  }

  /** `check_missing_sid`: the short id is no longer missing anywhere; the
      blocks it completes are recovered, the others keep waiting. */
  function CheckMissingSid(rec: Recovery, sid: ShortId): (r: Recovery)
    ensures r.pending == Waiting(StrikeAll(rec.pending, Some(sid), None))
    ensures r.recovered == rec.recovered + Finished(StrikeAll(rec.pending, Some(sid), None))
    ensures forall i :: 0 <= i < |rec.pending| ==>
      var p := StrikeOne(rec.pending[i], Some(sid), None);
      if Complete(p) then p.msg in r.recovered[|rec.recovered|..] else p in r.pending
    ensures forall i :: 0 <= i < |r.pending| ==> sid !in r.pending[i].sids && !Complete(r.pending[i])
    ensures Shrunk(rec, r)
  {
    Strike(rec, Some(sid), None)
  }

  /** `check_missing_tx_hash`: the hash is no longer missing anywhere; the
      blocks it completes are recovered, the others keep waiting. */
  function CheckMissingTxHash(rec: Recovery, hash: TxHash): (r: Recovery)
    ensures r.pending == Waiting(StrikeAll(rec.pending, None, Some(hash)))
    ensures r.recovered == rec.recovered + Finished(StrikeAll(rec.pending, None, Some(hash)))
    ensures forall i :: 0 <= i < |rec.pending| ==>
      var p := StrikeOne(rec.pending[i], None, Some(hash));
      if Complete(p) then p.msg in r.recovered[|rec.recovered|..] else p in r.pending
    ensures forall i :: 0 <= i < |r.pending| ==> hash !in r.pending[i].hashes && !Complete(r.pending[i])
    ensures Shrunk(rec, r)
  {
    Strike(rec, None, Some(hash))
  }

  /** `clean_up_recovered_messages`. */
  function CleanUp(rec: Recovery): (r: Recovery)
    ensures r.recovered == [] && r.pending == rec.pending
  {
    rec.(recovered := [])
  }

  /** A check (of a short id, a hash, or both) that completes every waiting
      block recovers all of them, in waiting order, and leaves nothing
      waiting. */
  lemma CheckCompletingAllRecoversAll(rec: Recovery, sid: Option<ShortId>, hash: Option<TxHash>)
    requires forall i :: 0 <= i < |rec.pending| ==> Complete(StrikeOne(rec.pending[i], sid, hash))
    ensures Strike(rec, sid, hash) == Recovery([], rec.recovered + Msgs(rec.pending))
  {
    var struck := StrikeAll(rec.pending, sid, hash);
    AllCompleteSettle(struck);
    assert Msgs(struck) == Msgs(rec.pending);
  }

  lemma {:induction false} AllCompleteSettle(ps: seq<PendingBlock>)
    requires forall i :: 0 <= i < |ps| ==> Complete(ps[i])
    ensures Waiting(ps) == [] && Finished(ps) == Msgs(ps)
    decreases |ps|
  {
    if ps != [] {
      AllCompleteSettle(ps[1..]);
      assert Msgs(ps) == [ps[0].msg] + Msgs(ps[1..]);
    }
  }

  /** A lone block missing one short id and one hash keeps waiting after the
      first of the two checks and is recovered exactly once by the second. */
  lemma SidThenHashRecoversOnce(rec: Recovery, p: PendingBlock, s: ShortId, h: TxHash)
    requires rec.pending == [p] && p.sids == {s} && p.hashes == {h}
    ensures CheckMissingSid(rec, s) == Recovery([p.(sids := {})], rec.recovered)
    ensures CheckMissingTxHash(CheckMissingSid(rec, s), h) == Recovery([], rec.recovered + [p.msg])
  {
    var q := p.(sids := {});
    assert StrikeOne(p, Some(s), None) == q by { assert {s} - {s} == {}; }
    StrikeLone(p, Some(s), None);
    assert q.hashes - {h} == {};
    StrikeLone(q, None, Some(h));
  }

  lemma HashThenSidRecoversOnce(rec: Recovery, p: PendingBlock, s: ShortId, h: TxHash)
    requires rec.pending == [p] && p.sids == {s} && p.hashes == {h}
    ensures CheckMissingTxHash(rec, h) == Recovery([p.(hashes := {})], rec.recovered)
    ensures CheckMissingSid(CheckMissingTxHash(rec, h), s) == Recovery([], rec.recovered + [p.msg])
  {
    var q := p.(hashes := {});
    assert StrikeOne(p, None, Some(h)) == q by { assert {h} - {h} == {}; }
    StrikeLone(p, None, Some(h));
    assert q.sids - {s} == {};
    StrikeLone(q, Some(s), None);
  }

  /** Striking a single waiting block. */
  lemma StrikeLone(p: PendingBlock, sid: Option<ShortId>, hash: Option<TxHash>)
    ensures var q := StrikeOne(p, sid, hash);
      && StrikeAll([p], sid, hash) == [q]
      && Waiting([q]) == (if Complete(q) then [] else [q])
      && Finished([q]) == (if Complete(q) then [q.msg] else [])
  {
    var q := StrikeOne(p, sid, hash);
    assert [q][1..] == [];
  }
}

=== FILE: common.dfy ===
/**
 Shared vocabulary of the gateway model: optional values, results of
 operations that can raise, and raw byte strings.
 */
module Common {

  /** A value that may be absent (Python's `None`). */
  datatype Option<T> = None | Some(value: T)

  /** The outcome of an operation that either returns or raises. */
  datatype Result<T, E> = Ok(value: T) | Err(error: E)

  type Byte = bv8

  type Bytes = seq<Byte>

  /** Map lookup that reports a missing key as `None`. */
  function Get<K, V>(m: map<K, V>, k: K): (r: Option<V>)
    ensures r.Some? <==> k in m
    ensures r.Some? ==> r.value == m[k]
  {
    if k in m then Some(m[k]) else None
  }
}

=== FILE: eth_message_factory.dfy ===
/**
 The Ethereum devp2p message factory of the gateway. During the RLPx
 handshake it is told to expect an `AUTH` or `AUTH_ACK` message, whose bytes
 it hands out raw; afterwards it asks the framed input buffer (the RLPx
 frame decoder, not part of this model) whether a full message has arrived
 and builds the message class mapped to its command.

 The framed input buffer is an oracle: each call receives what the buffer
 would answer at that moment.
 */
module EthMessageFactory {
  import opened Common

  /** Devp2p message types. `Other(code)` stands only for a command code that
      none of the named constructors covers; a code with a named constructor
      is never written as `Other`. */
  datatype EthMsgType =
    | Hello | Disconnect | Ping | Pong | Status | Transactions
    | NewBlockHashes | GetBlockHeaders | BlockHeaders | GetBlockBodies | BlockBodies | NewBlock
    | Auth | AuthAck
    | Other(code: int)

  /** The commands the factory maps to a message class. */
  const MessageTypeMapping: set<EthMsgType> := {
    Hello, Disconnect, Ping, Pong, Status, Transactions,
    NewBlockHashes, GetBlockHeaders, BlockHeaders, GetBlockBodies, BlockBodies, NewBlock
  }

  /** Length of an encrypted `AUTH_ACK` message of the RLPx handshake
      (97-byte plaintext plus 113 bytes of ECIES overhead). */
  const EncAuthAckMsgLen: nat := 210

  /** What the framed input buffer answers: whether a full message is
      buffered and its command (`peek_message`), and the full message with
      its command (`get_full_message`). */
  datatype FramedInputBuffer = FramedInputBuffer(
    peek: Bytes -> (bool, EthMsgType),
    fullMessage: (Bytes, EthMsgType))

  /** The constructor's argument: an RLPx cipher, or a value of another type. */
  datatype CipherArg = RLPxCipher(key: Bytes) | NotACipher

  datatype Factory = Factory(cipherKey: Bytes, expected: Option<EthMsgType>)

  datatype FactoryError = TypeError | ValueError | ParseError | KeyError

  datatype Preview = Preview(isFull: bool, command: Option<EthMsgType>, payloadLength: Option<nat>)

  const NotFull: Preview := Preview(false, None, None)

  /** A message built from the buffer: handshake bytes as they are, or an
      instance of the class mapped to the framed command. */
  datatype EthMessage = RawMessage(bytes: Bytes) | Typed(msgType: EthMsgType, bytes: Bytes)

  predicate IsHandshake(t: EthMsgType) {
    t == Auth || t == AuthAck
  }

  /** The factory expects either nothing or a handshake message. */
  predicate WellFormed(f: Factory) {
    f.expected.None? || IsHandshake(f.expected.value)
  }

  /** Construction rejects anything but an RLPx cipher and starts expecting
      nothing. */
  function New(arg: CipherArg): (r: Result<Factory, FactoryError>)
    ensures r.Err? <==> arg.NotACipher?
    ensures r.Err? ==> r.error == TypeError
    ensures r.Ok? ==> r.value.expected == None && WellFormed(r.value)
  {
    match arg
    case NotACipher => Err(TypeError)
    case RLPxCipher(key) => Ok(Factory(key, None))
  }

  /** `set_expected_msg_type`: only `AUTH` and `AUTH_ACK` are accepted; any
      other type raises `ValueError` before the state is touched. */
  function SetExpectedMsgType(f: Factory, t: EthMsgType): (r: Result<Factory, FactoryError>)
    ensures r.Ok? <==> IsHandshake(t)
    ensures r.Ok? ==> r.value.expected == Some(t) && r.value.cipherKey == f.cipherKey && WellFormed(r.value)
    ensures r.Err? ==> r.error == ValueError
  {
    if IsHandshake(t) then Ok(f.(expected := Some(t))) else Err(ValueError)
  }

  /** `reset_expected_msg_type`. */
  function ResetExpectedMsgType(f: Factory): (r: Factory)
    ensures r.expected.None? && r.cipherKey == f.cipherKey && WellFormed(r)
  {
    f.(expected := None)
  }

  /** `get_message_header_preview`: whether the buffer holds a full message,
      its command and its payload length. */
  function GetMessageHeaderPreview(f: Factory, buf: Bytes, framed: FramedInputBuffer): (r: Preview)
    ensures f.expected == Some(Auth) ==> r == Preview(true, Some(Auth), Some(|buf|))
    ensures f.expected == Some(AuthAck) && |buf| >= EncAuthAckMsgLen ==>
      r == Preview(true, Some(AuthAck), Some(EncAuthAckMsgLen))
    ensures f.expected == Some(AuthAck) && |buf| < EncAuthAckMsgLen ==> r == NotFull
    ensures f.expected.None? ==>
      && (r.isFull <==> framed.peek(buf).0)
      && (r.isFull ==> r == Preview(true, Some(framed.peek(buf).1), Some(0)))
    ensures !r.isFull ==> r == NotFull
    ensures !WellFormed(f) ==> r == NotFull
  {
    if f.expected == Some(Auth) then
      Preview(true, Some(Auth), Some(|buf|))
    else if f.expected == Some(AuthAck) && |buf| >= EncAuthAckMsgLen then
      Preview(true, Some(AuthAck), Some(EncAuthAckMsgLen))
    else if f.expected.None? && framed.peek(buf).0 then
      Preview(true, Some(framed.peek(buf).1), Some(0))
    else
      NotFull
  }

  /** `create_message_from_buffer`: raw bytes while a handshake message is
      expected; otherwise the buffer must already be drained into the framed
      buffer, whose command must have a mapped class. */
  function CreateMessageFromBuffer(f: Factory, buf: Bytes, framed: FramedInputBuffer): (r: Result<EthMessage, FactoryError>)
    ensures f.expected.Some? ==> r == Ok(RawMessage(buf))
    ensures f.expected.None? && |buf| != 0 ==> r == Err(ParseError)
    ensures f.expected.None? && |buf| == 0 ==>
      (r.Ok? <==> framed.fullMessage.1 in MessageTypeMapping)
    ensures f.expected.None? && r.Ok? ==>
      r.value == Typed(framed.fullMessage.1, framed.fullMessage.0) && r.value.msgType in MessageTypeMapping
    ensures r.Err? ==> r.error == ParseError || r.error == KeyError
  {
    if f.expected.Some? then Ok(RawMessage(buf))
    else if |buf| != 0 then Err(ParseError)
    else
      var (bytes, command) := framed.fullMessage;
      if command in MessageTypeMapping then Ok(Typed(command, bytes)) else Err(KeyError)
  }

  /** The factory's operations as a caller issues them. */
  datatype FactoryOp = SetExpected(t: EthMsgType) | ResetExpected

  /** Applies the operations in order; a rejected `SetExpected` leaves the
      factory as it was. */
  function ApplyOps(f: Factory, ops: seq<FactoryOp>): Factory
    decreases |ops|
  {
    if ops == [] then f
    else
      var next := match ops[0]
        case SetExpected(t) =>
          (match SetExpectedMsgType(f, t)
           case Ok(g) => g
           case Err(_) => f)
        case ResetExpected => ResetExpectedMsgType(f);
      ApplyOps(next, ops[1..])
  }

  /** Whatever operations follow construction, the factory only ever expects
      nothing, `AUTH` or `AUTH_ACK`. */
  lemma {:induction false} OpsKeepWellFormed(f: Factory, ops: seq<FactoryOp>)
    requires WellFormed(f)
    ensures WellFormed(ApplyOps(f, ops))
    ensures ApplyOps(f, ops).cipherKey == f.cipherKey
    decreases |ops|
  {
    if ops != [] {
      var next := match ops[0]
        case SetExpected(t) =>
          (match SetExpectedMsgType(f, t)
           case Ok(g) => g
           case Err(_) => f)
        case ResetExpected => ResetExpectedMsgType(f);
      assert WellFormed(next) && next.cipherKey == f.cipherKey;
      OpsKeepWellFormed(next, ops[1..]);
    }
  }

  /** Preview and construction agree: a full handshake message is previewed
      with the expected command and a length the buffer holds, and the bytes
      of that length are built raw; after the handshake a full framed
      message whose command is previewed is built exactly when that command
      is mapped. */
  lemma PreviewAgreesWithCreate(f: Factory, buf: Bytes, framed: FramedInputBuffer)
    requires WellFormed(f)
    requires GetMessageHeaderPreview(f, buf, framed).isFull
    ensures f.expected.Some? ==> var pv := GetMessageHeaderPreview(f, buf, framed);
      && pv.command == f.expected && pv.payloadLength.Some? && pv.payloadLength.value <= |buf|
      && CreateMessageFromBuffer(f, buf[..pv.payloadLength.value], framed)
         == Ok(RawMessage(buf[..pv.payloadLength.value]))
    ensures f.expected.Some? ==> CreateMessageFromBuffer(f, buf, framed) == Ok(RawMessage(buf))
    ensures f.expected.None? && |buf| == 0 && framed.fullMessage.1 == framed.peek(buf).1 ==>
      (CreateMessageFromBuffer(f, buf, framed).Ok? <==>
        GetMessageHeaderPreview(f, buf, framed).command.value in MessageTypeMapping)
  {
  }

  /** The handshake commands have no message class: the mapping holds only
      the twelve named devp2p commands. */
  lemma MappingExcludesHandshake()
    ensures Auth !in MessageTypeMapping && AuthAck !in MessageTypeMapping
    ensures forall t :: t in MessageTypeMapping ==> !t.Other? && !IsHandshake(t)
  {
  }
}

=== FILE: gateway_main.dfy ===
/**
 The two argument converters of the gateway's startup script: the peer list
 `ip:port,ip:port,...` given on the command line, and the blockchain network
 magic, given either by name or as a number.
 */
module GatewayMain {
  import opened Common
  import opened PyText

  /** An outbound peer: an address and a port. */
  datatype OutboundPeer = OutboundPeer(ip: string, port: int)

  /** The exceptions the converters raise. */
  datatype ConfigError = IndexError | ValueError

  /** The text between the first and the second `:` of a string that holds
      a `:`, or to its end when there is no second one. */
  function PortField(t: string): (f: string)
    requires ':' in t
    ensures ':' !in f
  {
    var rest := t[IndexOf(t, ':') + 1..];
    if ':' in rest then rest[..IndexOf(rest, ':')] else rest
  }

  /** A split has a second piece exactly when the separator occurs; the
      first two pieces are the text before the first separator and the
      text up to the next one. */
  lemma SplitPieces(t: string, sep: char)
    ensures |Split(t, sep)| >= 2 <==> sep in t
    ensures sep in t ==>
      var rest := t[IndexOf(t, sep) + 1..];
      && Split(t, sep)[0] == t[..IndexOf(t, sep)]
      && Split(t, sep)[1] == if sep in rest then rest[..IndexOf(rest, sep)] else rest
  {
    if sep in t {
      SplitUnfold(t, sep);
      var rest := t[IndexOf(t, sep) + 1..];
      if sep in rest {
        SplitUnfold(rest, sep);
      }
    }
  }

  /** One non-empty segment of the peer list, stripped and split on `:`.
      Without a `:` there is no second piece (`IndexError`); otherwise the ip
      is the text before the first `:` and the port the decimal integer up
      to the next one (`ValueError` when it is not one). */
  function ParsePeer(segment: string): (r: Result<OutboundPeer, ConfigError>)
    ensures var t := Strip(segment);
      && (':' !in t ==> r == Err(IndexError))
      && (':' in t ==>
        && (r.Ok? <==> ParseInt(PortField(t)).Some?)
        && (r.Ok? ==> r.value == OutboundPeer(t[..IndexOf(t, ':')], ParseInt(PortField(t)).value))
        && (r.Err? ==> r.error == ValueError))
  {
    var t := Strip(segment);
    SplitPieces(t, ':');
    var pieces := Split(t, ':');
    if |pieces| < 2 then Err(IndexError)
    else
      match ParseInt(pieces[1])
      case None => Err(ValueError)
      case Some(port) => Ok(OutboundPeer(pieces[0], port))
  }

  /** The segments that are not empty, in order. */
  function NonEmpty(segments: seq<string>): (r: seq<string>)
    ensures forall i :: 0 <= i < |r| ==> r[i] != ""
    ensures forall x :: x in r <==> x in segments && x != ""
    ensures |r| <= |segments|
    decreases |segments|
  {
    if segments == [] then []
    else if segments[0] == "" then NonEmpty(segments[1..])
    else [segments[0]] + NonEmpty(segments[1..])
  }

  /** Filtering keeps order and multiplicity: it distributes over
      concatenation and keeps a single segment exactly when it is non-empty. */
  lemma {:induction false} NonEmptyAppend(a: seq<string>, b: seq<string>)
    ensures NonEmpty(a + b) == NonEmpty(a) + NonEmpty(b)
    decreases |a|
  {
    if a != [] {
      assert (a + b)[1..] == a[1..] + b;
      NonEmptyAppend(a[1..], b);
    } else {
      assert a + b == b;
    }
  }

  lemma NonEmptySingle(x: string)
    ensures NonEmpty([x]) == if x == "" then [] else [x]
  {
    assert [x][1..] == [];
  }

  /** Parses items one after another with `parse`, collecting the results
      in order and stopping at the first failure. */
  function ParseEach<T(==), E(==)>(items: seq<string>, parse: string -> Result<T, E>): (r: Result<seq<T>, E>)
    ensures r.Ok? <==> forall i :: 0 <= i < |items| ==> parse(items[i]).Ok?
    ensures r.Ok? ==>
      && |r.value| == |items|
      && forall i :: 0 <= i < |r.value| ==> parse(items[i]) == Ok(r.value[i])
    ensures r.Err? ==>
      exists i :: 0 <= i < |items| && parse(items[i]) == Err(r.error)
        && forall j :: 0 <= j < i ==> parse(items[j]).Ok?
    decreases |items|
  {
    if items == [] then Ok([])
    else
      match parse(items[0])
      case Err(e) => Err(e)
      case Ok(p) =>
        var rest := ParseEach(items[1..], parse);
        match rest
        case Err(e) =>
          var k :| 0 <= k < |items| - 1 && parse(items[1..][k]) == Err(e)
            && forall j :: 0 <= j < k ==> parse(items[1..][j]).Ok?;
          assert parse(items[k + 1]) == Err(e);
          assert forall j :: 0 <= j < k + 1 ==> parse(items[j]).Ok? by {
            forall j | 0 <= j < k + 1
              ensures parse(items[j]).Ok?
            {
              if j > 0 {
                assert items[j] == items[1..][j - 1];
              }
            }
          }
          Err(e)
        case Ok(ps) =>
          var r := [p] + ps;
          assert forall i :: 1 <= i < |r| ==> items[i] == items[1..][i - 1] && r[i] == ps[i - 1];
          Ok(r)
  }

  /** `parse_peer_string`: the text split on `,`, empty segments skipped, each
      other segment parsed as a peer, in order. */
  function ParsePeerString(s: string): (r: Result<seq<OutboundPeer>, ConfigError>)
    ensures s == "" ==> r == Ok([])
  {
    ParseEach(NonEmpty(Split(s, ',')), ParsePeer)
  }

  /** A trailing comma adds an empty segment, which is skipped. */
  lemma TrailingCommaIgnored(s: string)
    ensures ParsePeerString(s + ",") == ParsePeerString(s)
  {
    SplitAppendSep(s, ',');
    NonEmptyDropsEmptyLast(Split(s, ','));
  }

  lemma {:induction false} NonEmptyDropsEmptyLast(segments: seq<string>)
    ensures NonEmpty(segments + [""]) == NonEmpty(segments)
    decreases |segments|
  {
    if segments != [] {
      assert (segments + [""])[1..] == segments[1..] + [""];
      NonEmptyDropsEmptyLast(segments[1..]);
    } else {
      assert NonEmpty([""]) == NonEmpty([""][1..]);
    }
  }

  /** Emptiness is checked before stripping: a segment of whitespace only is
      not skipped, it has no `:` and raises `IndexError`. */
  lemma BlankSegmentRaises(s: string)
    requires s != "" && forall i :: 0 <= i < |s| ==> IsSpace(s[i]) && s[i] != ','
    ensures ParsePeerString(s) == Err(IndexError)
  {
    assert ',' !in s by {
      forall i | 0 <= i < |s|
        ensures s[i] != ','
      {
      }
    }
    assert Split(s, ',') == [s];
    assert NonEmpty([s]) == [s] by {
      assert NonEmpty([s]) == [s] + NonEmpty([]);
    }
    assert Strip(s) == "";
    assert Split("", ':') == [""];
  }

  /** The segment the command line carries for a peer. */
  function FormatPeer(p: OutboundPeer): string {
    p.ip + ":" + IntToString(p.port)
  }

  function FormatSegments(peers: seq<OutboundPeer>): (r: seq<string>)
    ensures |r| == |peers|
    ensures forall i :: 0 <= i < |r| ==> r[i] == FormatPeer(peers[i])
  {
    seq(|peers|, i requires 0 <= i < |peers| => FormatPeer(peers[i]))
  }

  /** `ip:port,ip:port,...` for a list of peers. */
  function FormatPeers(peers: seq<OutboundPeer>): string {
    if peers == [] then "" else Join(FormatSegments(peers), ',')
  }

  /** An address the peer-list syntax can carry: no separator in it and no
      leading whitespace, which stripping would remove. */
  predicate PrintableIp(ip: string) {
    && ',' !in ip && ':' !in ip
    && (ip == [] || !IsSpace(ip[0]))
  }

  /** Parsing one formatted peer gives the peer back. */
  lemma ParseFormattedPeer(p: OutboundPeer)
    requires PrintableIp(p.ip)
    ensures ParsePeer(FormatPeer(p)) == Ok(p)
  {
    var digits := IntToString(p.port);
    assert ':' !in digits by {
      forall j | 0 <= j < |digits|
        ensures digits[j] != ':'
      {
      }
    }
    FieldsOfPair(p.ip, digits);
    FormatPeerStripped(p);
    ParseIntToString(p.port);
  }

  /** Whitespace between the colon and the port number is allowed, as
      `int` ignores it: `"1.2.3.4: 8333"` names port 8333. */
  lemma PaddedPortParses(ip: string, w: string, d: string)
    requires ip != [] && !IsSpace(ip[0]) && ':' !in ip
    requires AllSpace(w) && ValidDigits(d)
    ensures DigitsOrUnderscores(d)
    ensures ParsePeer(ip + ":" + w + d) == Ok(OutboundPeer(ip, DigitsValue(d)))
  {
    ValidDigitsChars(d);
    assert ip + ":" + w + d == ip + ":" + (w + d);
    PaddedPortFields(ip, w, d);
    PeerOfFields(ip + ":" + (w + d), ip, DigitsValue(d));
  }

  /** A segment that is its own `strip()` and whose port field parses is the
      peer of its address and that port. */
  lemma PeerOfFields(s: string, ip: string, port: int)
    requires Strip(s) == s && ':' in s && s[..IndexOf(s, ':')] == ip
    requires ParseInt(PortField(s)) == Some(port)
    ensures ParsePeer(s) == Ok(OutboundPeer(ip, port))
  {
  }

  /** The fields of a segment with a padded port: it is its own `strip()`,
      its address is `ip` and its port field is the padded literal. */
  lemma PaddedPortFields(ip: string, w: string, d: string)
    requires ip != [] && !IsSpace(ip[0]) && ':' !in ip
    requires AllSpace(w) && ValidDigits(d)
    ensures DigitsOrUnderscores(d)
    ensures var s := ip + ":" + (w + d);
      && Strip(s) == s && ':' in s && s[..IndexOf(s, ':')] == ip && PortField(s) == w + d
      && ParseInt(PortField(s)) == Some(DigitsValue(d) as int)
  {
    ValidDigitsChars(d);
    LiteralEnds(d);
    var port := w + d;
    var s := ip + ":" + port;
    forall i | 0 <= i < |port|
      ensures port[i] != ':'
    {
      if i < |w| {
        assert port[i] == w[i];
      } else {
        assert port[i] == d[i - |w|];
      }
    }
    assert s[0] == ip[0] && s[|s| - 1] == d[|d| - 1];
    StripUnchanged(s);
    FieldsOfPair(ip, port);
    ParseAfterSpaces(w, d);
  }

  lemma FieldsOfPair(ip: string, port: string)
    requires ':' !in ip && ':' !in port
    ensures var s := ip + ":" + port;
      ':' in s && IndexOf(s, ':') == |ip| && s[..|ip|] == ip && PortField(s) == port
  {
    var s := ip + ":" + port;
    assert s[|ip|] == ':';
    assert forall j :: 0 <= j < |ip| ==> s[j] == ip[j];
    IndexOfAt(s, ':', |ip|);
    assert s[..|ip|] == ip;
    assert s[|ip| + 1..] == port;
  }

  lemma FormatPeerStripped(p: OutboundPeer)
    requires PrintableIp(p.ip)
    ensures Strip(FormatPeer(p)) == FormatPeer(p)
  {
    var digits := IntToString(p.port);
    var s := FormatPeer(p);
    assert s[|s| - 1] == digits[|digits| - 1];
    assert s[0] == if p.ip == [] then ':' else p.ip[0];
    StripUnchanged(s);
  }

  /** Formatting peers and parsing the result gives the same peers, in the
      same order. */
  lemma ParseFormattedPeers(peers: seq<OutboundPeer>)
    requires forall i :: 0 <= i < |peers| ==> PrintableIp(peers[i].ip)
    ensures ParsePeerString(FormatPeers(peers)) == Ok(peers)
  {
    if peers != [] {
      FormattedSegments(peers);
      ParseSegments(peers);
    }
  }

  /** The segments of a formatted peer list are the formatted peers. */
  lemma FormattedSegments(peers: seq<OutboundPeer>)
    requires peers != []
    requires forall i :: 0 <= i < |peers| ==> PrintableIp(peers[i].ip)
    ensures NonEmpty(Split(FormatPeers(peers), ',')) == FormatSegments(peers)
  {
    var segs := FormatSegments(peers);
    forall i | 0 <= i < |segs|
      ensures ',' !in segs[i] && segs[i] != ""
    {
      assert segs[i][|peers[i].ip|] == ':';
    }
    SplitJoin(segs, ',');
    NonEmptyKeepsAll(segs);
  }

  /** Each formatted peer parses back to its peer. */
  lemma ParseSegments(peers: seq<OutboundPeer>)
    requires forall i :: 0 <= i < |peers| ==> PrintableIp(peers[i].ip)
    ensures ParseEach(FormatSegments(peers), ParsePeer) == Ok(peers)
  {
    var segs := FormatSegments(peers);
    forall i | 0 <= i < |segs|
      ensures ParsePeer(segs[i]) == Ok(peers[i])
    {
      ParseFormattedPeer(peers[i]);
    }
    ParseEachAllOk(segs, ParsePeer, peers);
  }

  /** When every item parses, the results are exactly the parsed values. */
  lemma ParseEachAllOk<T, E>(items: seq<string>, parse: string -> Result<T, E>, values: seq<T>)
    requires |values| == |items|
    requires forall i :: 0 <= i < |items| ==> parse(items[i]) == Ok(values[i])
    ensures ParseEach(items, parse) == Ok(values)
  {
    var r := ParseEach(items, parse);
    assert r.Ok?;
    assert forall i :: 0 <= i < |items| ==> r.value[i] == values[i];
    assert r.value == values;
  }

  lemma {:induction false} NonEmptyKeepsAll(segments: seq<string>)
    requires forall i :: 0 <= i < |segments| ==> segments[i] != ""
    ensures NonEmpty(segments) == segments
    decreases |segments|
  {
    if segments != [] {
      NonEmptyKeepsAll(segments[1..]);
      assert [segments[0]] + segments[1..] == segments;
    }
  }

  /** `convert_net_magic`: a known network name maps to its magic number
      through the table; anything else is read as a decimal integer. */
  function ConvertNetMagic(table: map<string, int>, magic: string): (r: Result<int, ConfigError>)
    ensures magic in table ==> r == Ok(table[magic])
    ensures magic !in table ==> (r.Ok? <==> ParseInt(magic).Some?)
    ensures magic !in table && r.Ok? ==> r.value == ParseInt(magic).value
    ensures r.Err? ==> r.error == ValueError
  {
    if magic in table then Ok(table[magic])
    else match ParseInt(magic)
      case None => Err(ValueError)
      case Some(n) => Ok(n)
  }

  /** A magic number written in decimal that is not a network name converts
      to itself. */
  lemma NumericMagic(table: map<string, int>, n: int)
    requires IntToString(n) !in table
    ensures ConvertNetMagic(table, IntToString(n)) == Ok(n)
  {
    ParseIntToString(n);
  }
}

=== FILE: lossy_relay.dfy ===
/**
 The fault-injecting relay session used in test mode. It sits in front of a
 relay session and, for `tx` and `txs` messages, counts calls and drops
 every 10th `tx` and every 3rd `txs`, delegating all others unchanged. The
 wrapped session is abstract: a state of any type and a function that
 delivers one message to it.
 */
module LossyRelay {

  /** The three counters of the wrapper; the `txassign` one is never used. */
  datatype Counters = Counters(txDrop: int, txAssignDrop: int, txsDrop: int)

  /** The two message kinds the wrapper interferes with. */
  datatype Channel = TxChannel | TxsChannel

  /** Every `Period(ch)`-th message of the channel is dropped. */
  function Period(ch: Channel): nat {
    match ch
    case TxChannel => 10
    case TxsChannel => 3
  }

  function CounterOf(c: Counters, ch: Channel): int {
    match ch
    case TxChannel => c.txDrop
    case TxsChannel => c.txsDrop
  }

  function WithCounter(c: Counters, ch: Channel, v: int): (r: Counters)
    ensures CounterOf(r, ch) == v
    ensures r.txAssignDrop == c.txAssignDrop
    ensures forall other :: other != ch ==> CounterOf(r, other) == CounterOf(c, other)
  {
    match ch
    case TxChannel => c.(txDrop := v)
    case TxsChannel => c.(txsDrop := v)
  }

  /** Construction: all three counters start at zero. */
  function NewCounters(): (c: Counters)
    ensures c.txAssignDrop == 0
    ensures forall ch :: CounterOf(c, ch) == 0
  {
    Counters(0, 0, 0)
  }

  /** Whether a call that has just bumped the counter to `counter` drops its
      message: the counter is positive and a multiple of the period. */
  predicate Drops(counter: int, ch: Channel) {
    counter > 0 && counter % Period(ch) == 0
  }

  /** One wrapped `msg_tx` or `msg_txs` call: bump the channel's counter; on a
      drop reset it and leave the wrapped session alone, otherwise hand the
      message to the wrapped session. */
  function Call<S, M>(ch: Channel, c: Counters, inner: S, m: M, deliver: (S, M) -> S): (r: (Counters, S))
    ensures r.0.txAssignDrop == c.txAssignDrop
    ensures forall other :: other != ch ==> CounterOf(r.0, other) == CounterOf(c, other)
    ensures 0 <= CounterOf(c, ch) < Period(ch) ==> 0 <= CounterOf(r.0, ch) < Period(ch)
    ensures Drops(CounterOf(c, ch) + 1, ch) ==> r.1 == inner
    ensures !Drops(CounterOf(c, ch) + 1, ch) ==> r.1 == deliver(inner, m)
  {
    var bumped := CounterOf(c, ch) + 1;
    if Drops(bumped, ch) then (WithCounter(c, ch, 0), inner)
    else (WithCounter(c, ch, bumped), deliver(inner, m))
  }

  /** `msg_tx` of the wrapper. */
  function MsgTx<S, M>(c: Counters, inner: S, m: M, deliver: (S, M) -> S): (r: (Counters, S))
    ensures r.0.txsDrop == c.txsDrop && r.0.txAssignDrop == c.txAssignDrop
    ensures 0 <= c.txDrop <= 9 ==> 0 <= r.0.txDrop <= 9
  {
    Call(TxChannel, c, inner, m, deliver)
  }

  /** `msg_txs` of the wrapper. */
  function MsgTxs<S, M>(c: Counters, inner: S, m: M, deliver: (S, M) -> S): (r: (Counters, S))
    ensures r.0.txDrop == c.txDrop && r.0.txAssignDrop == c.txAssignDrop
    ensures 0 <= c.txsDrop <= 2 ==> 0 <= r.0.txsDrop <= 2
  {
    Call(TxsChannel, c, inner, m, deliver)
  }

  /** A run of calls on one channel, in order. */
  function Run<S, M>(ch: Channel, c: Counters, inner: S, ms: seq<M>, deliver: (S, M) -> S): (r: (Counters, S))
    decreases |ms|
  {
    if ms == [] then (c, inner)
    else
      var before := Run(ch, c, inner, ms[..|ms| - 1], deliver);
      Call(ch, before.0, before.1, ms[|ms| - 1], deliver)
  }

  /** The messages of `ms` whose 1-based position is not a multiple of `p`. */
  function Survivors<M>(ms: seq<M>, p: nat): (r: seq<M>)
    requires p > 0
    decreases |ms|
  {
    if ms == [] then []
    else Survivors(ms[..|ms| - 1], p) + (if |ms| % p == 0 then [] else [ms[|ms| - 1]])
  }

  /** Delivers the messages one after another to the wrapped session. */
  function DeliverAll<S, M>(inner: S, ms: seq<M>, deliver: (S, M) -> S): S
    decreases |ms|
  {
    if ms == [] then inner else deliver(DeliverAll(inner, ms[..|ms| - 1], deliver), ms[|ms| - 1])
  }

  /** After `n` calls from a fresh wrapper the channel's counter is `n` modulo
      the period, and the other counters are still zero. */
  lemma {:induction false} CounterAfterRun<S, M>(ch: Channel, inner: S, ms: seq<M>, deliver: (S, M) -> S)
    ensures var c := Run(ch, NewCounters(), inner, ms, deliver).0;
      && CounterOf(c, ch) == |ms| % Period(ch)
      && (forall other :: other != ch ==> CounterOf(c, other) == 0)
      && c.txAssignDrop == 0
    decreases |ms|
  {
    if ms != [] {
      var prefix := ms[..|ms| - 1];
      CounterAfterRun(ch, inner, prefix, deliver);
      var before := Run(ch, NewCounters(), inner, prefix, deliver);
      CallCounter(ch, before.0, before.1, ms[|ms| - 1], deliver, |prefix|);
    }
  }

  /** One call moves the channel's counter from `n` to `n + 1` modulo the
      period. */
  lemma CallCounter<S, M>(ch: Channel, c: Counters, inner: S, m: M, deliver: (S, M) -> S, n: nat)
    requires CounterOf(c, ch) == n % Period(ch)
    ensures CounterOf(Call(ch, c, inner, m, deliver).0, ch) == (n + 1) % Period(ch)
  {
    NextDivMod(n, ch);
    DropsOnlyAtPeriod(n % Period(ch) + 1, ch);
  }

  /** The k-th call since construction drops its message exactly when k is a
      multiple of the period. */
  lemma KthCallDrops<S, M>(ch: Channel, inner: S, ms: seq<M>, deliver: (S, M) -> S, k: nat)
    requires 1 <= k <= |ms|
    ensures var c := Run(ch, NewCounters(), inner, ms[..k - 1], deliver).0;
      Drops(CounterOf(c, ch) + 1, ch) <==> k % Period(ch) == 0
  {
    CounterAfterRun(ch, inner, ms[..k - 1], deliver);
    DropsAt(k - 1, ch);
  }

  /** The call after `n` calls drops exactly when `n + 1` is a multiple of the
      period. */
  lemma DropsAt(n: nat, ch: Channel)
    ensures Drops(n % Period(ch) + 1, ch) <==> (n + 1) % Period(ch) == 0
  {
    NextDivMod(n, ch);
    DropsOnlyAtPeriod(n % Period(ch) + 1, ch);
  }

  /** Between one and the period, only the period itself is a multiple of it. */
  lemma DropsOnlyAtPeriod(x: int, ch: Channel)
    requires 1 <= x <= Period(ch)
    ensures Drops(x, ch) <==> x == Period(ch)
  {
    if x < Period(ch) {
      assert x % Period(ch) == x;
    }
  }

  /** A run from a fresh wrapper delegates exactly the surviving messages, each
      once and in order, to the wrapped session. */
  lemma {:induction false} RunDelegatesSurvivors<S, M>(ch: Channel, inner: S, ms: seq<M>, deliver: (S, M) -> S)
    ensures Run(ch, NewCounters(), inner, ms, deliver).1 == DeliverAll(inner, Survivors(ms, Period(ch)), deliver)
    decreases |ms|
  {
    if ms != [] {
      var p := Period(ch);
      var prefix := ms[..|ms| - 1];
      var last := ms[|ms| - 1];
      RunDelegatesSurvivors(ch, inner, prefix, deliver);
      KthCallDrops(ch, inner, ms, deliver, |ms|);
      var before := Run(ch, NewCounters(), inner, prefix, deliver);
      assert Run(ch, NewCounters(), inner, ms, deliver) == Call(ch, before.0, before.1, last, deliver);
      var kept := Survivors(prefix, p);
      if |ms| % p != 0 {
        var extended := kept + [last];
        assert Survivors(ms, p) == extended;
        assert extended[..|extended| - 1] == kept;
        assert DeliverAll(inner, extended, deliver) == deliver(DeliverAll(inner, kept, deliver), last);
      } else {
        assert Survivors(ms, p) == kept;
      }
    }
  }

  /** Of `n` messages on a channel with period `p`, `n - n / p` survive. */
  lemma {:induction false} SurvivorCount<M>(ms: seq<M>, ch: Channel)
    ensures |Survivors(ms, Period(ch))| == |ms| - |ms| / Period(ch)
    decreases |ms|
  {
    if ms != [] {
      var n := |ms| - 1;
      SurvivorCount(ms[..n], ch);
      NextDivMod(n, ch);
    }
  }

  /** Stepping from `n` to `n + 1` calls: the remainder either wraps to zero
      with the quotient going up by one, or grows by one. */
  lemma NextDivMod(n: nat, ch: Channel)
    ensures var p := Period(ch);
      n % p + 1 == p ==> (n + 1) % p == 0 && (n + 1) / p == n / p + 1
    ensures var p := Period(ch);
      n % p + 1 != p ==> (n + 1) % p == n % p + 1 && (n + 1) / p == n / p
  {
    match ch
    case TxChannel => assert Period(ch) == 10;
    case TxsChannel => assert Period(ch) == 3;
  }

  /** Over `n` `msg_tx` calls from a fresh wrapper, `n - n / 10` messages are
      delegated, in order; over `n` `msg_txs` calls, `n - n / 3`. */
  lemma DelegatedCount<M>(ch: Channel, ms: seq<M>)
    ensures var log := Run(ch, NewCounters(), [], ms, AppendOne).1;
      |log| == |ms| - |ms| / Period(ch)
  {
    RunDelegatesSurvivors(ch, [], ms, AppendOne);
    AppendAll(Survivors(ms, Period(ch)));
    SurvivorCount(ms, ch);
  }

  /** A wrapped session that only records the messages it receives. */
  function AppendOne<M>(log: seq<M>, m: M): seq<M> {
    log + [m]
  }

  /** The recording session receives exactly the delivered messages. */
  lemma {:induction false} AppendAll<M>(ms: seq<M>)
    ensures DeliverAll([], ms, AppendOne) == ms
    decreases |ms|
  {
    if ms != [] {
      var prefix, last := ms[..|ms| - 1], ms[|ms| - 1];
      AppendAll(prefix);
      assert DeliverAll([], ms, AppendOne) == AppendOne(DeliverAll([], prefix, AppendOne), last);
      assert prefix + [last] == ms;
    }
  }
}

=== FILE: relay_connection.dfy ===
/**
 The relay session of a Bitcoin gateway: what each inbound relay message does
 to the shared transaction index and recovery service, and what it sends to
 the relay and to the local blockchain node.

 The block codec, the double SHA-256 and the base class's `msg_txassign` are
 collaborators whose code is not part of this model; they are passed in as
 functions. Sending is modelled as appending to two logs: messages enqueued
 to the relay and byte strings sent to the node.
 */
module RelayConnection {
  import opened Common
  import opened TxIndex
  import opened BlockRecovery

  /** Messages this session enqueues to the relay. */
  datatype OutMsg = HelloMessage(nodeIdx: int) | GetTxsMessage(shortIds: seq<int>)

  /** What `broadcastmsg_to_block` reports: the block when every transaction
      was known, the block hash, and the short ids and hashes it was missing. */
  datatype Decompressed = Decompressed(
    block: Option<Bytes>,
    blockHash: Bytes,
    unknownSids: seq<ShortId>,
    unknownHashes: seq<TxHash>)

  /** A relay `tx` message: the hash the relay claims, and the raw transaction. */
  datatype TxMessage = TxMessage(claimedHash: TxHash, blob: Bytes)

  datatype TxAssignMessage = TxAssignMessage(shortId: ShortId, txHash: TxHash)

  /** One `(short id, hash, contents)` triple of a `txs` message. */
  datatype TxsEntry = TxsEntry(shortId: ShortId, hash: TxHash, contents: Bytes)

  datatype Collaborators = Collaborators(
    decompress: (Bytes, Index) -> Decompressed,
    doubleSha256: Bytes -> TxHash,
    txToNode: (TxMessage, int) -> Bytes,
    baseTxAssign: (Index, TxAssignMessage) -> (Index, Option<TxHash>))

  /** The state one relay session sees: the node's shared index and recovery
      service, the node connection's network magic when a node is connected,
      and the two output logs. */
  datatype Session = Session(
    index: Index,
    recovery: Recovery,
    nodeMagic: Option<int>,
    relayOut: seq<OutMsg>,
    nodeOut: seq<Bytes>)

  /** Number of messages this session has sent, to the relay and to the node. */
  function Sent(g: Session): nat {
    |g.relayOut| + |g.nodeOut|
  }

  /** The second session extends the first: same node connection, and both
      logs only grew. */
  predicate Extends(g: Session, r: Session) {
    && r.nodeMagic == g.nodeMagic
    && g.relayOut <= r.relayOut
    && g.nodeOut <= r.nodeOut
  }

  /** Construction: the session's first outbound message is a hello carrying
      the node's index. */
  function Connect(nodeIdx: int, index: Index, recovery: Recovery, nodeMagic: Option<int>): (g: Session)
    ensures |g.relayOut| == 1 && g.relayOut[0] == HelloMessage(nodeIdx)
    ensures g.nodeOut == []
    ensures g.index == index && g.recovery == recovery && g.nodeMagic == nodeMagic
  {
    Session(index, recovery, nodeMagic, [HelloMessage(nodeIdx)], [])
  }

  /** The short ids a `GetTxs` request asks for after a failed decompression:
      the unknown short ids, then for every hash with unknown contents its
      short id, or -1 when it has none. */
  function RequestedShortIds(idx: Index, sids: seq<ShortId>, hashes: seq<TxHash>): (q: seq<int>)
    ensures |q| == |sids| + |hashes|
    ensures forall i :: 0 <= i < |sids| ==> q[i] == sids[i]
    ensures forall j :: 0 <= j < |hashes| ==>
      (q[|sids| + j] == NoShortId <==> !HasShortId(idx, hashes[j]))
    ensures forall j :: 0 <= j < |hashes| && q[|sids| + j] != NoShortId ==>
      hashes[j] in idx.hashToSids && q[|sids| + j] in idx.hashToSids[hashes[j]]
  {
    var known := seq(|hashes|, j requires 0 <= j < |hashes| => GetTxid(idx, hashes[j]));
    var unknown := seq(|sids|, i requires 0 <= i < |sids| => sids[i] as int);
    unknown + known
  }

  /** `msg_broadcast`: forward a block that decompresses; otherwise register
      it with recovery and ask the relay once for everything it misses. */
  function MsgBroadcast(c: Collaborators, g: Session, msg: Bytes): (r: Session)
    ensures r.index == g.index && Extends(g, r)
    ensures g.recovery.pending <= r.recovery.pending
    ensures Sent(r) == Sent(g) + 1
    ensures var d := c.decompress(msg, g.index);
      d.block.Some? ==>
        && r.nodeOut == g.nodeOut + [d.block.value]
        && r.relayOut == g.relayOut
        && r.recovery == g.recovery
    ensures var d := c.decompress(msg, g.index);
      d.block.None? ==>
        && r.nodeOut == g.nodeOut
        && r.recovery == AddBlockMsg(g.recovery, msg, d.blockHash, d.unknownSids, d.unknownHashes)
        && |r.relayOut| == |g.relayOut| + 1
        && r.relayOut[|g.relayOut|] == GetTxsMessage(RequestedShortIds(g.index, d.unknownSids, d.unknownHashes))
  {
    var d := c.decompress(msg, g.index);
    match d.block
    case Some(block) =>
      g.(nodeOut := g.nodeOut + [block])
    case None =>
      g.(recovery := AddBlockMsg(g.recovery, msg, d.blockHash, d.unknownSids, d.unknownHashes),
         relayOut := g.relayOut + [GetTxsMessage(RequestedShortIds(g.index, d.unknownSids, d.unknownHashes))])
  }

  /** Broadcasts the messages one after another, in order. */
  function BroadcastAll(c: Collaborators, g: Session, msgs: seq<Bytes>): (r: Session)
    ensures r.index == g.index && Extends(g, r)
    ensures g.recovery.pending <= r.recovery.pending
    ensures r.recovery.recovered == g.recovery.recovered
    ensures Sent(r) == Sent(g) + |msgs|
    decreases |msgs|
  {
    if msgs == [] then g
    else BroadcastAll(c, MsgBroadcast(c, g, msgs[0]), msgs[1..])
  }

  /** `_msg_broadcast_retry`: re-broadcast every recovered message, then clear
      the recovered list. */
  function Retry(c: Collaborators, g: Session): (r: Session)
    ensures g.recovery.recovered == [] ==> r == g
    ensures r.recovery.recovered == []
    ensures r.index == g.index && Extends(g, r)
    ensures g.recovery.pending <= r.recovery.pending
    ensures Sent(r) == Sent(g) + |g.recovery.recovered|
  {
    if g.recovery.recovered == [] then g
    else
      var broadcast := BroadcastAll(c, g, g.recovery.recovered);
      broadcast.(recovery := CleanUp(broadcast.recovery))
  }

  /** `msg_tx`: a transaction whose double SHA-256 matches the claimed hash
      is stored, struck from recovery, followed by a retry, and forwarded to
      the node when one is connected; any other is dropped. */
  function MsgTx(c: Collaborators, g: Session, m: TxMessage): (r: Session)
    ensures c.doubleSha256(m.blob) != m.claimedHash ==> r == g
    ensures c.doubleSha256(m.blob) == m.claimedHash ==>
      && Extends(g, r)
      && m.claimedHash in r.index.contents && r.index.contents[m.claimedHash] == m.blob
      && (forall h :: h != m.claimedHash ==> Get(r.index.contents, h) == Get(g.index.contents, h))
      && r.index.sidToHash == g.index.sidToHash
      && r.index.hashToSids == g.index.hashToSids
      && r.index.mirror == g.index.mirror
      && r.recovery.recovered == []
      && CheckMissingTxHash(g.recovery, m.claimedHash).pending <= r.recovery.pending
      && Sent(r) == Sent(g) + |CheckMissingTxHash(g.recovery, m.claimedHash).recovered|
                          + (if g.nodeMagic.Some? then 1 else 0)
    ensures c.doubleSha256(m.blob) == m.claimedHash && g.nodeMagic.Some? ==>
      |r.nodeOut| > |g.nodeOut| && r.nodeOut[|r.nodeOut| - 1] == c.txToNode(m, g.nodeMagic.value)
  {
    var hash := c.doubleSha256(m.blob);
    if hash != m.claimedHash then g
    else
      var stored := g.(index := g.index.(contents := g.index.contents[hash := m.blob]));
      var checked := stored.(recovery := CheckMissingTxHash(stored.recovery, hash));
      var retried := Retry(c, checked);
      match g.nodeMagic
      case Some(magic) => retried.(nodeOut := retried.nodeOut + [c.txToNode(m, magic)])
      case None => retried
  }

  /** `msg_txassign`: the base class's assignment runs first; only when it
      reports a hash is the short id struck from recovery and a retry run.
      The reported hash is returned unchanged. */
  function MsgTxAssign(c: Collaborators, g: Session, m: TxAssignMessage): (r: (Session, Option<TxHash>))
    ensures var index := c.baseTxAssign(g.index, m).0;
      var hash := c.baseTxAssign(g.index, m).1;
      && r.1 == hash
      && r.0.index == index
      && Extends(g, r.0)
      && (hash.None? ==> r.0 == g.(index := index))
      && (hash.Some? ==>
            && r.0.recovery.recovered == []
            && CheckMissingSid(g.recovery, m.shortId).pending <= r.0.recovery.pending
            && Sent(r.0) == Sent(g) + |CheckMissingSid(g.recovery, m.shortId).recovered|)
  {
    var index := c.baseTxAssign(g.index, m).0;
    var hash := c.baseTxAssign(g.index, m).1;
    var afterBase := g.(index := index);
    if hash.Some? then
      (Retry(c, afterBase.(recovery := CheckMissingSid(afterBase.recovery, m.shortId))), hash)
    else (afterBase, hash)
  }

  /** One triple of `msg_txs`: strike the short id, assign it only to a hash
      that has no short id yet, strike the hash, and store the contents only
      when none are stored. */
  function AcceptTxsEntry(g: Session, e: TxsEntry): (r: Session)
    ensures r.relayOut == g.relayOut && r.nodeOut == g.nodeOut && r.nodeMagic == g.nodeMagic
    ensures g.recovery.recovered <= r.recovery.recovered
    ensures forall i :: 0 <= i < |r.recovery.pending| ==>
      e.shortId !in r.recovery.pending[i].sids && e.hash !in r.recovery.pending[i].hashes
    ensures HasShortId(g.index, e.hash) ==>
      r.index.sidToHash == g.index.sidToHash && r.index.hashToSids == g.index.hashToSids
    ensures !HasShortId(g.index, e.hash) ==>
      r.index == AssignShortId(g.index, e.hash, e.shortId).(contents := r.index.contents)
    ensures e.hash in g.index.contents ==> r.index.contents == g.index.contents
    ensures e.hash !in g.index.contents ==> r.index.contents == g.index.contents[e.hash := e.contents]
    ensures HasShortId(r.index, e.hash) && e.hash in r.index.contents
    ensures r.recovery == CheckMissingTxHash(CheckMissingSid(g.recovery, e.shortId), e.hash)
  {
    var sidChecked := CheckMissingSid(g.recovery, e.shortId);
    var index := if GetTxid(g.index, e.hash) == NoShortId
                 then AssignShortId(g.index, e.hash, e.shortId) else g.index;
    var hashChecked := CheckMissingTxHash(sidChecked, e.hash);
    assert NoneMiss(sidChecked.pending, Some(e.shortId), None);
    ShrunkKeepsNoneMiss(sidChecked, hashChecked, Some(e.shortId), None);
    var contents := if e.hash !in index.contents then index.contents[e.hash := e.contents] else index.contents;
    g.(index := index.(contents := contents), recovery := hashChecked)
  }

  /** What the triples of a `txs` message do to recovery on their own: for
      each triple in order, the short id's check and then the hash's. */
  function CheckTriples(rec: Recovery, es: seq<TxsEntry>): (r: Recovery)
    ensures rec.recovered <= r.recovered
    decreases |es|
  {
    if es == [] then rec
    else CheckTriples(CheckMissingTxHash(CheckMissingSid(rec, es[0].shortId), es[0].hash), es[1..])
  }

  /** The triples of a `txs` message, accepted in order. The index updates
      do not influence recovery. */
  function AcceptTxsEntries(g: Session, es: seq<TxsEntry>): (r: Session)
    ensures r.relayOut == g.relayOut && r.nodeOut == g.nodeOut && r.nodeMagic == g.nodeMagic
    ensures r.recovery == CheckTriples(g.recovery, es)
    ensures g.recovery.recovered <= r.recovery.recovered
    decreases |es|
  {
    if es == [] then g else AcceptTxsEntries(AcceptTxsEntry(g, es[0]), es[1..])
  }

  /** `msg_txs`: accept every triple, then retry once. */
  function MsgTxs(c: Collaborators, g: Session, es: seq<TxsEntry>): (r: Session)
    ensures Extends(g, r) && r.recovery.recovered == []
    ensures CheckTriples(g.recovery, es).pending <= r.recovery.pending
    ensures Sent(r) == Sent(g) + |CheckTriples(g.recovery, es).recovered|
  {
    Retry(c, AcceptTxsEntries(g, es))
  }

  /** Inbound relay messages, one variant per entry of the dispatch table. */
  datatype RelayMessage =
    | Hello
    | Ack
    | Broadcast(msg: Bytes)
    | TxAssign(assign: TxAssignMessage)
    | Tx(tx: TxMessage)
    | Txs(entries: seq<TxsEntry>)

  /** The command name a message is dispatched on. */
  function Command(m: RelayMessage): string {
    match m
    case Hello => "hello"
    case Ack => "ack"
    case Broadcast(_) => "broadcast"
    case TxAssign(_) => "txassign"
    case Tx(_) => "tx"
    case Txs(_) => "txs"
  }

  /** The command names of the session's dispatch table. */
  const MessageHandlers: set<string> := {"hello", "ack", "broadcast", "txassign", "tx", "txs"}

  /** Handles one inbound message with the handler the dispatch table holds
      for its command; every command has one (`DispatchTableMatchesMessages`).
      `msg_hello` and `msg_ack` belong to the base connection class and leave
      the modelled state unchanged. */
  function Dispatch(c: Collaborators, g: Session, m: RelayMessage): (r: Session)
    ensures Extends(g, r)
  {
    match m
    case Hello => g
    case Ack => g
    case Broadcast(msg) => MsgBroadcast(c, g, msg)
    case TxAssign(a) => MsgTxAssign(c, g, a).0
    case Tx(t) => MsgTx(c, g, t)
    case Txs(es) => MsgTxs(c, g, es)
  }

  /** Handles inbound messages in arrival order. */
  function Run(c: Collaborators, g: Session, ms: seq<RelayMessage>): (r: Session)
    ensures Extends(g, r)
    decreases |ms|
  {
    if ms == [] then g else Run(c, Dispatch(c, g, ms[0]), ms[1..])
  }
}

=== FILE: relay_properties.dfy ===
/**
 Properties of the relay session that relate several handler steps: the
 dispatch table, the hello that opens every session, the order in which the
 retry loop forwards recovered blocks, the first-writer-wins rules of `txs`,
 and the index invariant kept by every handler.
 */
module RelayProperties {
  import opened Common
  import opened TxIndex
  import opened BlockRecovery
  import opened RelayConnection

  /** The dispatch table names exactly the commands of the inbound message
      variants: every message has a handler, and every handler a message. */
  lemma DispatchTableMatchesMessages()
    ensures forall m :: Command(m) in MessageHandlers
    ensures forall cmd :: cmd in MessageHandlers ==> exists m :: Command(m) == cmd
  {
    forall cmd | cmd in MessageHandlers ensures exists m :: Command(m) == cmd {
      if cmd == "hello" { assert Command(Hello) == cmd; }
      else if cmd == "ack" { assert Command(Ack) == cmd; }
      else if cmd == "broadcast" { assert Command(Broadcast([])) == cmd; }
      else if cmd == "txassign" { assert Command(TxAssign(TxAssignMessage(0, []))) == cmd; }
      else if cmd == "tx" { assert Command(Tx(TxMessage([], []))) == cmd; }
      else { assert Command(Txs([])) == cmd; }
    }
  }

  /** Whatever arrives afterwards, the first message a session sends to the
      relay is its hello. */
  lemma HelloIsFirst(c: Collaborators, nodeIdx: int, index: Index, rec: Recovery,
                     nodeMagic: Option<int>, ms: seq<RelayMessage>)
    ensures var r := Run(c, Connect(nodeIdx, index, rec, nodeMagic), ms);
      |r.relayOut| >= 1 && r.relayOut[0] == HelloMessage(nodeIdx)
  {
    var g := Connect(nodeIdx, index, rec, nodeMagic);
    var r := Run(c, g, ms);
    assert g.relayOut <= r.relayOut;
    assert r.relayOut[0] == g.relayOut[0];
  }

  predicate AllDecompress(c: Collaborators, idx: Index, msgs: seq<Bytes>) {
    forall i :: 0 <= i < |msgs| ==> c.decompress(msgs[i], idx).block.Some?
  }

  /** The blocks the messages decompress to, in message order. */
  function DecodedBlocks(c: Collaborators, idx: Index, msgs: seq<Bytes>): (bs: seq<Bytes>)
    requires AllDecompress(c, idx, msgs)
    ensures |bs| == |msgs|
    ensures forall i :: 0 <= i < |msgs| ==> bs[i] == c.decompress(msgs[i], idx).block.value
  {
    seq(|msgs|, i requires 0 <= i < |msgs| => c.decompress(msgs[i], idx).block.value)
  }

  /** Broadcasting messages that all decompress forwards their blocks to the
      node in message order, and asks the relay for nothing. */
  lemma {:induction false} BroadcastAllForwardsInOrder(c: Collaborators, g: Session, msgs: seq<Bytes>)
    requires AllDecompress(c, g.index, msgs)
    ensures var r := BroadcastAll(c, g, msgs);
      && r.nodeOut == g.nodeOut + DecodedBlocks(c, g.index, msgs)
      && r.relayOut == g.relayOut
      && r.recovery == g.recovery
    decreases |msgs|
  {
    if msgs != [] {
      DecodedBlocksCons(c, g.index, msgs);
      BroadcastAllForwardsInOrder(c, AfterFirstBlock(c, g, msgs), msgs[1..]);
      BroadcastStep(c, g, msgs);
    }
  }

  /** The session after the first message's block has reached the node. */
  function AfterFirstBlock(c: Collaborators, g: Session, msgs: seq<Bytes>): (g1: Session)
    requires msgs != [] && c.decompress(msgs[0], g.index).block.Some?
    ensures g1.index == g.index && g1.relayOut == g.relayOut && g1.recovery == g.recovery
  {
    g.(nodeOut := g.nodeOut + [c.decompress(msgs[0], g.index).block.value])
  }

  /** What `BroadcastAllForwardsInOrder` states about one session. */
  predicate ForwardsInOrder(c: Collaborators, g: Session, msgs: seq<Bytes>)
    requires AllDecompress(c, g.index, msgs)
  {
    var r := BroadcastAll(c, g, msgs);
    && r.nodeOut == g.nodeOut + DecodedBlocks(c, g.index, msgs)
    && r.relayOut == g.relayOut
    && r.recovery == g.recovery
  }

  /** The induction step: forwarding the other messages after the first block
      forwards all of them. */
  lemma BroadcastStep(c: Collaborators, g: Session, msgs: seq<Bytes>)
    requires msgs != [] && AllDecompress(c, g.index, msgs) && AllDecompress(c, g.index, msgs[1..])
    requires ForwardsInOrder(c, AfterFirstBlock(c, g, msgs), msgs[1..])
    ensures ForwardsInOrder(c, g, msgs)
  {
    BroadcastDecoded(c, g, msgs);
    DecodedBlocksCons(c, g.index, msgs);
    AppendRegroup(g.nodeOut, c.decompress(msgs[0], g.index).block.value, DecodedBlocks(c, g.index, msgs[1..]));
  }

  lemma AppendRegroup(out: seq<Bytes>, b: Bytes, bs: seq<Bytes>)
    ensures out + [b] + bs == out + ([b] + bs)
  {
  }

  /** A first message that decompresses only appends its block to the node's
      output. */
  lemma BroadcastDecoded(c: Collaborators, g: Session, msgs: seq<Bytes>)
    requires msgs != [] && c.decompress(msgs[0], g.index).block.Some?
    ensures BroadcastAll(c, g, msgs) == BroadcastAll(c, AfterFirstBlock(c, g, msgs), msgs[1..])
  {
    assert MsgBroadcast(c, g, msgs[0]) == AfterFirstBlock(c, g, msgs);
  }

  /** The blocks of a non-empty list: the first message's block, then the
      blocks of the others. */
  lemma DecodedBlocksCons(c: Collaborators, idx: Index, msgs: seq<Bytes>)
    requires msgs != [] && AllDecompress(c, idx, msgs)
    ensures AllDecompress(c, idx, msgs[1..])
    ensures DecodedBlocks(c, idx, msgs) == [c.decompress(msgs[0], idx).block.value] + DecodedBlocks(c, idx, msgs[1..])
  {
    var rest := msgs[1..];
    assert forall i :: 0 <= i < |rest| ==> rest[i] == msgs[i + 1];
  }

  /** The retry loop re-broadcasts every recovered message in list order: when
      they all decompress, their blocks reach the node in that order. */
  lemma RetryForwardsInOrder(c: Collaborators, g: Session)
    requires AllDecompress(c, g.index, g.recovery.recovered)
    ensures var r := Retry(c, g);
      && r.nodeOut == g.nodeOut + DecodedBlocks(c, g.index, g.recovery.recovered)
      && r.relayOut == g.relayOut
      && r.recovery == CleanUp(g.recovery)
  {
    BroadcastAllForwardsInOrder(c, g, g.recovery.recovered);
  }

  /** The order of `msg_tx` on a valid transaction: contents are stored before
      recovery is checked, every recovered block is forwarded next, and the
      transaction itself reaches the node last when a node is connected.
      Afterwards exactly the blocks the hash's check left waiting still wait,
      and nothing is left to retry. */
  lemma ValidTxForwardsBlocksThenTx(c: Collaborators, g: Session, m: TxMessage)
    requires c.doubleSha256(m.blob) == m.claimedHash
    requires var stored := g.index.(contents := g.index.contents[m.claimedHash := m.blob]);
      AllDecompress(c, stored, CheckMissingTxHash(g.recovery, m.claimedHash).recovered)
    ensures var stored := g.index.(contents := g.index.contents[m.claimedHash := m.blob]);
      var checked := CheckMissingTxHash(g.recovery, m.claimedHash);
      var r := MsgTx(c, g, m);
      && r.nodeOut == g.nodeOut + DecodedBlocks(c, stored, checked.recovered)
                      + (if g.nodeMagic.Some? then [c.txToNode(m, g.nodeMagic.value)] else [])
      && r.relayOut == g.relayOut
      && r.recovery == Recovery(checked.pending, [])
  {
    var stored := g.(index := g.index.(contents := g.index.contents[m.claimedHash := m.blob]));
    var checked := stored.(recovery := CheckMissingTxHash(stored.recovery, m.claimedHash));
    RetryForwardsInOrder(c, checked);
  }

  /** `msg_txassign` with a reported hash: every block on the recovered list
      after the short id's check is forwarded in list order, nothing is sent
      to the relay, and exactly the blocks the check left waiting still
      wait. */
  lemma TxAssignForwardsRecovered(c: Collaborators, g: Session, m: TxAssignMessage)
    requires c.baseTxAssign(g.index, m).1.Some?
    requires AllDecompress(c, c.baseTxAssign(g.index, m).0, CheckMissingSid(g.recovery, m.shortId).recovered)
    ensures var index := c.baseTxAssign(g.index, m).0;
      var checked := CheckMissingSid(g.recovery, m.shortId);
      var r := MsgTxAssign(c, g, m).0;
      && r.nodeOut == g.nodeOut + DecodedBlocks(c, index, checked.recovered)
      && r.relayOut == g.relayOut
      && r.recovery == Recovery(checked.pending, [])
  {
    var afterBase := g.(index := c.baseTxAssign(g.index, m).0);
    RetryForwardsInOrder(c, afterBase.(recovery := CheckMissingSid(g.recovery, m.shortId)));
  }

  /** `msg_txs`: after the triples, every block on the recovered list is
      forwarded in list order, nothing is sent to the relay, and exactly the
      blocks the triples' checks left waiting still wait. */
  lemma TxsForwardsRecovered(c: Collaborators, g: Session, es: seq<TxsEntry>)
    requires var a := AcceptTxsEntries(g, es); AllDecompress(c, a.index, a.recovery.recovered)
    ensures var a := AcceptTxsEntries(g, es);
      var r := MsgTxs(c, g, es);
      && r.nodeOut == g.nodeOut + DecodedBlocks(c, a.index, CheckTriples(g.recovery, es).recovered)
      && r.relayOut == g.relayOut
      && r.recovery == Recovery(CheckTriples(g.recovery, es).pending, [])
  {
    RetryForwardsInOrder(c, AcceptTxsEntries(g, es));
  }

  /** A triple answering a lone block that misses exactly its short id and
      hash recovers that block once. */
  lemma TxsRecoversLoneBlock(g: Session, p: PendingBlock, e: TxsEntry)
    requires g.recovery.pending == [p] && p.sids == {e.shortId} && p.hashes == {e.hash}
    ensures AcceptTxsEntry(g, e).recovery == Recovery([], g.recovery.recovered + [p.msg])
  {
    SidThenHashRecoversOnce(g.recovery, p, e.shortId, e.hash);
  }

  /** The bulk answer to a lone block's request: a `txs` message with its one
      missing triple forwards the block to the node, asks nothing of the
      relay, and leaves recovery empty. */
  lemma TxsAnswerForwardsLoneBlock(c: Collaborators, g: Session, p: PendingBlock, e: TxsEntry)
    requires g.recovery == Recovery([p], []) && p.sids == {e.shortId} && p.hashes == {e.hash}
    requires c.decompress(p.msg, AcceptTxsEntry(g, e).index).block.Some?
    ensures var r := MsgTxs(c, g, [e]);
      && r.nodeOut == g.nodeOut + [c.decompress(p.msg, AcceptTxsEntry(g, e).index).block.value]
      && r.relayOut == g.relayOut
      && r.recovery == NoRecovery
  {
    var a := AcceptTxsEntry(g, e);
    TxsRecoversLoneBlock(g, p, e);
    TxsOfOne(c, g, e);
    RetryOne(c, a, p.msg);
  }

  /** A `txs` message of one triple: accept it, then retry. */
  lemma TxsOfOne(c: Collaborators, g: Session, e: TxsEntry)
    ensures MsgTxs(c, g, [e]) == Retry(c, AcceptTxsEntry(g, e))
  {
    var a := AcceptTxsEntry(g, e);
    assert [e][1..] == [];
    assert AcceptTxsEntries(g, [e]) == AcceptTxsEntries(a, []);
    assert AcceptTxsEntries(a, []) == a;
  }

  /** A retry with one recovered message that decompresses forwards its block
      and empties recovery when nothing else waits. */
  lemma RetryOne(c: Collaborators, g: Session, msg: Bytes)
    requires g.recovery == Recovery([], [msg]) && c.decompress(msg, g.index).block.Some?
    ensures var r := Retry(c, g);
      && r.nodeOut == g.nodeOut + [c.decompress(msg, g.index).block.value]
      && r.relayOut == g.relayOut
      && r.recovery == NoRecovery
  {
    RetryForwardsInOrder(c, g);
    assert DecodedBlocks(c, g.index, [msg]) == [c.decompress(msg, g.index).block.value];
  }

  /** `txs` never replaces the short ids of a hash that already had one. */
  lemma {:induction false} TxsKeepsAssignments(g: Session, es: seq<TxsEntry>)
    ensures var r := AcceptTxsEntries(g, es);
      forall h :: HasShortId(g.index, h) ==> Get(r.index.hashToSids, h) == Get(g.index.hashToSids, h)
    decreases |es|
  {
    if es != [] {
      var g1 := AcceptTxsEntry(g, es[0]);
      TxsKeepsAssignments(g1, es[1..]);
      forall h | HasShortId(g.index, h)
        ensures Get(g1.index.hashToSids, h) == Get(g.index.hashToSids, h) && HasShortId(g1.index, h)
      {
        if !HasShortId(g.index, es[0].hash) {
          assert h != es[0].hash;
          assert Get(AssignShortId(g.index, es[0].hash, es[0].shortId).hashToSids, h)
              == Get(g.index.hashToSids, h);
        }
      }
    }
  }

  /** `txs` never replaces contents that were already stored. */
  lemma {:induction false} TxsKeepsContents(g: Session, es: seq<TxsEntry>)
    ensures var r := AcceptTxsEntries(g, es);
      forall h :: h in g.index.contents ==> Get(r.index.contents, h) == Get(g.index.contents, h)
    decreases |es|
  {
    if es != [] {
      var g1 := AcceptTxsEntry(g, es[0]);
      TxsKeepsContents(g1, es[1..]);
    }
  }

  /** For a hash that first appears at position `i` of a `txs` message, the
      triple at `i` decides: a hash that had no short id ends with exactly
      that triple's short id, and a hash that had no contents ends with that
      triple's contents. */
  lemma {:induction false} TxsFirstTripleWins(g: Session, es: seq<TxsEntry>, i: nat)
    requires i < |es|
    requires forall j :: 0 <= j < i ==> es[j].hash != es[i].hash
    ensures var r := AcceptTxsEntries(g, es);
      var h := es[i].hash;
      && (!HasShortId(g.index, h) ==> h in r.index.hashToSids && r.index.hashToSids[h] == {es[i].shortId})
      && (h !in g.index.contents ==> h in r.index.contents && r.index.contents[h] == es[i].contents)
    decreases i
  {
    var h := es[i].hash;
    var g1 := AcceptTxsEntry(g, es[0]);
    if i == 0 {
      TxsKeepsAssignments(g1, es[1..]);
      TxsKeepsContents(g1, es[1..]);
      if !HasShortId(g.index, h) {
        var sids := if h in g.index.hashToSids then g.index.hashToSids[h] else {};
        assert sids == {};
        assert g1.index.hashToSids[h] == {es[0].shortId};
      }
    } else {
      assert es[0].hash != h;
      assert forall j :: 0 <= j < i - 1 ==> es[1..][j] == es[j + 1];
      TxsFirstTripleWins(g1, es[1..], i - 1);
      assert es[1..][i - 1] == es[i];
      if !HasShortId(g.index, es[0].hash) {
        assert Get(AssignShortId(g.index, es[0].hash, es[0].shortId).hashToSids, h)
            == Get(g.index.hashToSids, h);
      }
      assert Get(g1.index.hashToSids, h) == Get(g.index.hashToSids, h);
      assert Get(g1.index.contents, h) == Get(g.index.contents, h);
    }
  }

  /** Every hash named by a `txs` message ends with a short id and contents. */
  lemma {:induction false} TxsCoversEveryTriple(g: Session, es: seq<TxsEntry>)
    ensures var r := AcceptTxsEntries(g, es);
      forall k :: 0 <= k < |es| ==> HasShortId(r.index, es[k].hash) && es[k].hash in r.index.contents
    decreases |es|
  {
    if es != [] {
      var g1 := AcceptTxsEntry(g, es[0]);
      var r := AcceptTxsEntries(g1, es[1..]);
      TxsCoversEveryTriple(g1, es[1..]);
      TxsKeepsAssignments(g1, es[1..]);
      TxsKeepsContents(g1, es[1..]);
      forall k | 0 <= k < |es| ensures HasShortId(r.index, es[k].hash) && es[k].hash in r.index.contents {
        if k == 0 {
          assert Get(r.index.hashToSids, es[0].hash) == Get(g1.index.hashToSids, es[0].hash);
          assert Get(r.index.contents, es[0].hash) == Get(g1.index.contents, es[0].hash);
        } else {
          assert es[k] == es[1..][k - 1];
        }
      }
    }
  }

  /** First writer wins for a whole `txs` message: hashes that already had a
      short id or contents keep them, and every hash it names ends with both. */
  lemma TxsFirstWriterWins(c: Collaborators, g: Session, es: seq<TxsEntry>)
    ensures var r := MsgTxs(c, g, es);
      && (forall h :: HasShortId(g.index, h) ==> Get(r.index.hashToSids, h) == Get(g.index.hashToSids, h))
      && (forall h :: h in g.index.contents ==> Get(r.index.contents, h) == Get(g.index.contents, h))
      && (forall k :: 0 <= k < |es| ==> HasShortId(r.index, es[k].hash) && es[k].hash in r.index.contents)
  {
    TxsKeepsAssignments(g, es);
    TxsKeepsContents(g, es);
    TxsCoversEveryTriple(g, es);
  }

  /** After the triples of a `txs` message, no waiting block still misses any
      of their short ids or hashes. */
  lemma TxsStrikesEveryTriple(g: Session, es: seq<TxsEntry>)
    ensures var r := AcceptTxsEntries(g, es);
      && Shrunk(g.recovery, r.recovery)
      && forall i, k :: 0 <= i < |r.recovery.pending| && 0 <= k < |es| ==>
           es[k].shortId !in r.recovery.pending[i].sids && es[k].hash !in r.recovery.pending[i].hashes
  {
    TxsShrinks(g, es);
    TxsStrikesAll(g, es);
    var pending := AcceptTxsEntries(g, es).recovery.pending;
    forall i, k | 0 <= i < |pending| && 0 <= k < |es|
      ensures es[k].shortId !in pending[i].sids && es[k].hash !in pending[i].hashes
    {
      assert Struck(pending, es[k]);
    }
  }

  /** No waiting block misses the triple's short id or hash. */
  predicate Struck(pending: seq<PendingBlock>, e: TxsEntry) {
    forall i :: 0 <= i < |pending| ==> e.shortId !in pending[i].sids && e.hash !in pending[i].hashes
  }

  lemma {:induction false} TxsStrikesAll(g: Session, es: seq<TxsEntry>)
    ensures var pending := AcceptTxsEntries(g, es).recovery.pending;
      forall k :: 0 <= k < |es| ==> Struck(pending, es[k])
    decreases |es|, 1
  {
    if es != [] {
      var pending := AcceptTxsEntries(g, es).recovery.pending;
      TxsStrikesFirst(g, es);
      TxsStrikesRest(g, es);
      forall k | 0 <= k < |es|
        ensures Struck(pending, es[k])
      {
        if k == 0 {
          assert Struck(pending, es[0]);
        }
      }
    }
  }

  /** The first triple is struck for good. */
  lemma TxsStrikesFirst(g: Session, es: seq<TxsEntry>)
    requires es != []
    ensures Struck(AcceptTxsEntries(g, es).recovery.pending, es[0])
  {
    var g1 := AcceptTxsEntry(g, es[0]);
    var r := AcceptTxsEntries(g1, es[1..]);
    assert AcceptTxsEntries(g, es) == r;
    assert Struck(g1.recovery.pending, es[0]);
    TxsShrinks(g1, es[1..]);
    assert NoneMiss(g1.recovery.pending, Some(es[0].shortId), Some(es[0].hash));
    ShrunkKeepsNoneMiss(g1.recovery, r.recovery, Some(es[0].shortId), Some(es[0].hash));
  }

  /** The later triples are struck by the remaining steps. */
  lemma {:induction false} TxsStrikesRest(g: Session, es: seq<TxsEntry>)
    requires es != []
    ensures forall k :: 1 <= k < |es| ==> Struck(AcceptTxsEntries(g, es).recovery.pending, es[k])
    decreases |es|, 0
  {
    var rest := es[1..];
    TxsStrikesAll(AcceptTxsEntry(g, es[0]), rest);
    var pending := AcceptTxsEntries(AcceptTxsEntry(g, es[0]), rest).recovery.pending;
    assert AcceptTxsEntries(g, es).recovery.pending == pending;
    forall k | 1 <= k < |es|
      ensures Struck(pending, es[k])
    {
      assert es[k] == rest[k - 1];
    }
  }

  /** Accepting triples only ever shrinks what recovery waits for. */
  lemma {:induction false} TxsShrinks(g: Session, es: seq<TxsEntry>)
    ensures Shrunk(g.recovery, AcceptTxsEntries(g, es).recovery)
    decreases |es|
  {
    if es == [] {
      ShrunkReflexive(g.recovery);
    } else {
      var g1 := AcceptTxsEntry(g, es[0]);
      TxsShrinks(g1, es[1..]);
      AcceptShrinks(g, es[0]);
      ShrunkTransitive(g.recovery, g1.recovery, AcceptTxsEntries(g, es).recovery);
    }
  }

  lemma ShrunkReflexive(a: Recovery)
    ensures Shrunk(a, a)
  {
    forall p | p in a.pending
      ensures exists q :: q in a.pending && p.sids <= q.sids && p.hashes <= q.hashes
    {
      assert p.sids <= p.sids && p.hashes <= p.hashes;
    }
  }

  lemma AcceptShrinks(g: Session, e: TxsEntry)
    ensures Shrunk(g.recovery, AcceptTxsEntry(g, e).recovery)
  {
    var sidChecked := CheckMissingSid(g.recovery, e.shortId);
    ShrunkTransitive(g.recovery, sidChecked, CheckMissingTxHash(sidChecked, e.hash));
  }

  lemma ShrunkTransitive(a: Recovery, b: Recovery, c: Recovery)
    requires Shrunk(a, b) && Shrunk(b, c)
    ensures Shrunk(a, c)
  {
    forall p | p in c.pending
      ensures exists q :: q in a.pending && p.sids <= q.sids && p.hashes <= q.hashes
    {
      var q :| q in b.pending && p.sids <= q.sids && p.hashes <= q.hashes;
      var o :| o in a.pending && q.sids <= o.sids && q.hashes <= o.hashes;
    }
  }

  /** The index invariant survives the triples of a `txs` message. */
  lemma {:induction false} TxsPreservesConsistent(g: Session, es: seq<TxsEntry>)
    requires Consistent(g.index) && MirrorCovers(g.index)
    ensures Consistent(AcceptTxsEntries(g, es).index)
    ensures MirrorCovers(AcceptTxsEntries(g, es).index)
    decreases |es|
  {
    if es != [] {
      var e := es[0];
      var g1 := AcceptTxsEntry(g, e);
      if !HasShortId(g.index, e.hash) {
        AssignPreservesConsistent(g.index, e.hash, e.shortId);
      }
      assert Consistent(g1.index) && MirrorCovers(g1.index);
      TxsPreservesConsistent(g1, es[1..]);
    }
  }

  /** Every handler keeps the index invariant; for `txassign` this holds as
      long as the base class's assignment keeps it. */
  lemma DispatchPreservesConsistent(c: Collaborators, g: Session, m: RelayMessage)
    requires Consistent(g.index) && MirrorCovers(g.index)
    requires m.TxAssign? ==>
      var index := c.baseTxAssign(g.index, m.assign).0;
      Consistent(index) && MirrorCovers(index)
    ensures Consistent(Dispatch(c, g, m).index)
    ensures MirrorCovers(Dispatch(c, g, m).index)
  {
    match m
    case Txs(es) => TxsPreservesConsistent(g, es);
    case _ =>
  }
  /** Two messages in a row are handled one after the other. */
  lemma RunPair(c: Collaborators, g: Session, m1: RelayMessage, m2: RelayMessage)
    ensures Run(c, g, [m1, m2]) == Dispatch(c, Dispatch(c, g, m1), m2)
  {
    var g1 := Dispatch(c, g, m1);
    assert [m1, m2][1..] == [m2];
    assert Run(c, g, [m1, m2]) == Run(c, g1, [m2]);
    assert [m2][1..] == [];
    assert Run(c, g1, [m2]) == Run(c, Dispatch(c, g1, m2), []);
  }

  /** Which handler each message reaches. */
  lemma DispatchRoutes(c: Collaborators, g: Session, m: RelayMessage)
    ensures m.Broadcast? ==> Dispatch(c, g, m) == MsgBroadcast(c, g, m.msg)
    ensures m.TxAssign? ==> Dispatch(c, g, m) == MsgTxAssign(c, g, m.assign).0
    ensures m.Tx? ==> Dispatch(c, g, m) == MsgTx(c, g, m.tx)
    ensures m.Txs? ==> Dispatch(c, g, m) == MsgTxs(c, g, m.entries)
  {
  }

  /** On a fresh session, a broadcast block that does not decompress is the
      only block waiting afterwards, on exactly the short ids and hashes it
      lacks, and its request follows the hello. */
  lemma BroadcastWaits(c: Collaborators, nodeIdx: int, idx: Index, magic: Option<int>, b: Bytes)
    requires c.decompress(b, idx).block.None?
    ensures var d := c.decompress(b, idx);
      var r := Dispatch(c, Connect(nodeIdx, idx, NoRecovery, magic), Broadcast(b));
      && r.index == idx && r.nodeOut == [] && r.nodeMagic == magic
      && r.relayOut == [HelloMessage(nodeIdx), GetTxsMessage(RequestedShortIds(idx, d.unknownSids, d.unknownHashes))]
      && r.recovery == Recovery([PendingBlock(b, d.blockHash, SetOf(d.unknownSids), SetOf(d.unknownHashes))], [])
  {
  }

  /** A check that completes the only waiting block recovers just that
      block. */
  lemma LoneBlockCompleted(p: PendingBlock, sid: Option<ShortId>, hash: Option<TxHash>)
    requires Complete(StrikeOne(p, sid, hash))
    ensures Strike(Recovery([p], []), sid, hash) == Recovery([], [p.msg])
  {
    CheckCompletingAllRecoversAll(Recovery([p], []), sid, hash);
    assert Msgs([p]) == [p.msg];
  }

  lemma SetOfEmpty<T(!new)>()
    ensures SetOf<T>([]) == {}
  {
  }

  lemma SetOfSingle<T(!new)>(x: T)
    ensures SetOf([x]) == {x}
  {
  }

  /** Routing of `tx`: on a fresh session, a block waiting only on a
      transaction's hash goes to the node as soon as that transaction
      arrives, followed by the transaction itself, and nothing is left
      waiting. */
  lemma BroadcastThenTxForwardsBoth(c: Collaborators, nodeIdx: int, idx: Index, magic: int,
                                    b: Bytes, t: TxMessage)
    requires var d := c.decompress(b, idx);
      d.block.None? && d.unknownSids == [] && d.unknownHashes == [t.claimedHash]
    requires c.doubleSha256(t.blob) == t.claimedHash
    requires c.decompress(b, idx.(contents := idx.contents[t.claimedHash := t.blob])).block.Some?
    ensures var stored := idx.(contents := idx.contents[t.claimedHash := t.blob]);
      var r := Run(c, Connect(nodeIdx, idx, NoRecovery, Some(magic)), [Broadcast(b), Tx(t)]);
      && r.nodeOut == [c.decompress(b, stored).block.value, c.txToNode(t, magic)]
      && r.relayOut == [HelloMessage(nodeIdx), GetTxsMessage(RequestedShortIds(idx, [], [t.claimedHash]))]
      && r.recovery == NoRecovery
  {
    var g := Connect(nodeIdx, idx, NoRecovery, Some(magic));
    var d := c.decompress(b, idx);
    var g1 := Dispatch(c, g, Broadcast(b));
    RunPair(c, g, Broadcast(b), Tx(t));
    DispatchRoutes(c, g1, Tx(t));
    BroadcastWaits(c, nodeIdx, idx, Some(magic), b);
    SetOfEmpty<ShortId>();
    SetOfSingle(t.claimedHash);
    TxAnswerForwardsLoneBlock(c, g1, PendingBlock(b, d.blockHash, {}, {t.claimedHash}), t);
  }

  /** The transaction a lone block waits for, by hash only, sends that block
      to the node and then the transaction, and leaves nothing waiting. */
  lemma TxAnswerForwardsLoneBlock(c: Collaborators, g: Session, p: PendingBlock, t: TxMessage)
    requires g.recovery == Recovery([p], []) && p.sids == {} && p.hashes == {t.claimedHash}
    requires c.doubleSha256(t.blob) == t.claimedHash && g.nodeMagic.Some?
    requires c.decompress(p.msg, g.index.(contents := g.index.contents[t.claimedHash := t.blob])).block.Some?
    ensures var stored := g.index.(contents := g.index.contents[t.claimedHash := t.blob]);
      var r := MsgTx(c, g, t);
      && r.nodeOut == g.nodeOut + [c.decompress(p.msg, stored).block.value, c.txToNode(t, g.nodeMagic.value)]
      && r.relayOut == g.relayOut
      && r.recovery == NoRecovery
  {
    var stored := g.index.(contents := g.index.contents[t.claimedHash := t.blob]);
    var block := c.decompress(p.msg, stored).block.value;
    var tx := c.txToNode(t, g.nodeMagic.value);
    assert CheckMissingTxHash(g.recovery, t.claimedHash) == Recovery([], [p.msg]) by {
      assert StrikeOne(p, None, Some(t.claimedHash)).hashes == {};
      LoneBlockCompleted(p, None, Some(t.claimedHash));
    }
    assert DecodedBlocks(c, stored, [p.msg]) == [block];
    ValidTxForwardsBlocksThenTx(c, g, t);
    assert g.nodeOut + [block] + [tx] == g.nodeOut + [block, tx];
  }

  /** Routing of `txassign`: on a fresh session, a block waiting only on a
      short id goes to the node once the base assignment reports a hash for
      that id, and nothing is left waiting. */
  lemma BroadcastThenTxAssignForwards(c: Collaborators, nodeIdx: int, idx: Index,
                                      magic: Option<int>, b: Bytes, a: TxAssignMessage)
    requires var d := c.decompress(b, idx);
      d.block.None? && d.unknownSids == [a.shortId] && d.unknownHashes == []
    requires c.baseTxAssign(idx, a).1.Some?
    requires c.decompress(b, c.baseTxAssign(idx, a).0).block.Some?
    ensures var r := Run(c, Connect(nodeIdx, idx, NoRecovery, magic), [Broadcast(b), TxAssign(a)]);
      && r.nodeOut == [c.decompress(b, c.baseTxAssign(idx, a).0).block.value]
      && r.relayOut == [HelloMessage(nodeIdx), GetTxsMessage(RequestedShortIds(idx, [a.shortId], []))]
      && r.recovery == NoRecovery
  {
    var g := Connect(nodeIdx, idx, NoRecovery, magic);
    var d := c.decompress(b, idx);
    var g1 := Dispatch(c, g, Broadcast(b));
    RunPair(c, g, Broadcast(b), TxAssign(a));
    DispatchRoutes(c, g1, TxAssign(a));
    BroadcastWaits(c, nodeIdx, idx, magic, b);
    SetOfSingle(a.shortId);
    SetOfEmpty<TxHash>();
    TxAssignAnswerForwardsLoneBlock(c, g1, PendingBlock(b, d.blockHash, {a.shortId}, {}), a);
  }

  /** An assignment of the only short id a lone block waits for sends that
      block to the node once the base class reports a hash, and leaves
      nothing waiting. */
  lemma TxAssignAnswerForwardsLoneBlock(c: Collaborators, g: Session, p: PendingBlock, a: TxAssignMessage)
    requires g.recovery == Recovery([p], []) && p.sids == {a.shortId} && p.hashes == {}
    requires c.baseTxAssign(g.index, a).1.Some?
    requires c.decompress(p.msg, c.baseTxAssign(g.index, a).0).block.Some?
    ensures var index := c.baseTxAssign(g.index, a).0;
      var r := MsgTxAssign(c, g, a).0;
      && r.nodeOut == g.nodeOut + [c.decompress(p.msg, index).block.value]
      && r.relayOut == g.relayOut
      && r.recovery == NoRecovery
  {
    var index := c.baseTxAssign(g.index, a).0;
    assert CheckMissingSid(g.recovery, a.shortId) == Recovery([], [p.msg]) by {
      assert StrikeOne(p, Some(a.shortId), None).sids == {};
      LoneBlockCompleted(p, Some(a.shortId), None);
    }
    assert DecodedBlocks(c, index, [p.msg]) == [c.decompress(p.msg, index).block.value];
    TxAssignForwardsRecovered(c, g, a);
  }

  /** Routing of `txs`: on a fresh session, a block waiting on one short id
      and its hash goes to the node once a `txs` answer carries that triple,
      and nothing is left waiting. */
  lemma BroadcastThenTxsForwards(c: Collaborators, nodeIdx: int, idx: Index,
                                 magic: Option<int>, b: Bytes, e: TxsEntry)
    requires var d := c.decompress(b, idx);
      d.block.None? && d.unknownSids == [e.shortId] && d.unknownHashes == [e.hash]
    ensures var g1 := Dispatch(c, Connect(nodeIdx, idx, NoRecovery, magic), Broadcast(b));
      var index := AcceptTxsEntry(g1, e).index;
      var r := Run(c, Connect(nodeIdx, idx, NoRecovery, magic), [Broadcast(b), Txs([e])]);
      c.decompress(b, index).block.Some? ==>
        && r.nodeOut == [c.decompress(b, index).block.value]
        && r.relayOut == [HelloMessage(nodeIdx), GetTxsMessage(RequestedShortIds(idx, [e.shortId], [e.hash]))]
        && r.recovery == NoRecovery
  {
    var g := Connect(nodeIdx, idx, NoRecovery, magic);
    var d := c.decompress(b, idx);
    var g1 := Dispatch(c, g, Broadcast(b));
    RunPair(c, g, Broadcast(b), Txs([e]));
    DispatchRoutes(c, g1, Txs([e]));
    BroadcastWaits(c, nodeIdx, idx, magic, b);
    SetOfSingle(e.shortId);
    SetOfSingle(e.hash);
    if c.decompress(b, AcceptTxsEntry(g1, e).index).block.Some? {
      TxsAnswerForwardsLoneBlock(c, g1, PendingBlock(b, d.blockHash, {e.shortId}, {e.hash}), e);
    }
  }
}

=== FILE: text.dfy ===
/**
 The parts of Python's `str` the gateway's configuration parsing relies on:
 `split` on one separator character, `strip` with no argument, and `int`
 on a decimal string. Strings are sequences of code points.
 */
module PyText {
  import opened Common

  /** The characters Python counts as whitespace, which `strip()` removes and
      `int()` ignores around a number. */
  predicate IsSpace(c: char) {
    || c == ' ' || c == '\t' || c == '\n' || c == '\r' || c == '\U{000B}' || c == '\U{000C}'
    || ('\U{001C}' <= c <= '\U{001F}')
    || c == '\U{0085}' || c == '\U{00A0}' || c == '\U{1680}'
    || ('\U{2000}' <= c <= '\U{200A}')
    || c == '\U{2028}' || c == '\U{2029}' || c == '\U{202F}' || c == '\U{205F}' || c == '\U{3000}'
  }

  predicate IsDigit(c: char) {
    '0' <= c <= '9'
  }

  /** Position of the first occurrence of `c` in `s`. */
  function IndexOf(s: string, c: char): (i: nat)
    requires c in s
    ensures i < |s| && s[i] == c
    ensures forall j :: 0 <= j < i ==> s[j] != c
  {
    if s[0] == c then 0 else IndexOf(s[1..], c) + 1
  }

  /** The first occurrence is the position holding `c` with no `c` before it. */
  lemma IndexOfAt(s: string, c: char, k: nat)
    requires k < |s| && s[k] == c
    requires forall j :: 0 <= j < k ==> s[j] != c
    ensures IndexOf(s, c) == k
  {
  }

  /** Joins pieces with the separator between each two. */
  function Join(parts: seq<string>, sep: char): string
    requires |parts| >= 1
    decreases |parts|
  {
    if |parts| == 1 then parts[0] else parts[0] + [sep] + Join(parts[1..], sep)
  }

  /** `s.split(sep)`: the pieces between separators, empty pieces included. */
  function Split(s: string, sep: char): (parts: seq<string>)
    ensures |parts| >= 1
    decreases |s|
  {
    if sep !in s then [s]
    else
      var i := IndexOf(s, sep);
      [s[..i]] + Split(s[i + 1..], sep)
  }

  /** Joining the pieces of a split gives back the string. */
  lemma {:induction false} JoinSplit(s: string, sep: char)
    ensures Join(Split(s, sep), sep) == s
    decreases |s|
  {
    if sep in s {
      var i := IndexOf(s, sep);
      var head, rest := s[..i], s[i + 1..];
      SplitUnfold(s, sep);
      JoinSplit(rest, sep);
      JoinCons(head, Split(rest, sep), sep);
      SliceAround(s, i);
    }
  }

  /** A string is the text before a position, the character there and the
      text after it. */
  lemma SliceAround(s: string, i: nat)
    requires i < |s|
    ensures s == s[..i] + [s[i]] + s[i + 1..]
  {
  }

  /** Joining a first piece in front of further pieces. */
  lemma JoinCons(p: string, rest: seq<string>, sep: char)
    requires |rest| >= 1
    ensures Join([p] + rest, sep) == p + [sep] + Join(rest, sep)
  {
    assert ([p] + rest)[1..] == rest;
  }

  /** Splitting undoes joining pieces that do not contain the separator. */
  lemma {:induction false} SplitJoin(parts: seq<string>, sep: char)
    requires |parts| >= 1
    requires forall i :: 0 <= i < |parts| ==> sep !in parts[i]
    ensures Split(Join(parts, sep), sep) == parts
    decreases |parts|
  {
    if |parts| == 1 {
      assert Join(parts, sep) == parts[0];
    } else {
      var head, tail := parts[0], parts[1..];
      assert parts == [head] + tail;
      assert forall i :: 0 <= i < |tail| ==> sep !in tail[i] by {
        forall i | 0 <= i < |tail|
          ensures sep !in tail[i]
        {
          assert tail[i] == parts[i + 1];
        }
      }
      SplitJoin(tail, sep);
      JoinCons(head, tail, sep);
      SplitCons(head, sep, Join(tail, sep));
    }
  }

  /** A piece without the separator, then the separator: the piece is the
      first part of the split. */
  lemma SplitCons(p: string, sep: char, tail: string)
    requires sep !in p
    ensures Split(p + [sep] + tail, sep) == [p] + Split(tail, sep)
  {
    var s := p + [sep] + tail;
    assert forall j :: 0 <= j < |p| ==> s[j] == p[j];
    IndexOfAt(s, sep, |p|);
    assert s[..|p|] == p;
    assert s[|p| + 1..] == tail;
  }

  /** `split` is the one way of cutting a string into separator-free pieces
      that join back to it. */
  lemma SplitCharacterised(s: string, sep: char, parts: seq<string>)
    ensures Split(s, sep) == parts <==>
      && |parts| >= 1
      && (forall i :: 0 <= i < |parts| ==> sep !in parts[i])
      && Join(parts, sep) == s
  {
    JoinSplit(s, sep);
    SplitPiecesNoSep(s, sep);
    if && |parts| >= 1
       && (forall i :: 0 <= i < |parts| ==> sep !in parts[i])
       && Join(parts, sep) == s
    {
      SplitJoin(parts, sep);
    }
  }

  /** Splitting a string with a separator appended adds one empty piece. */
  lemma SplitAppendSep(s: string, sep: char)
    ensures Split(s + [sep], sep) == Split(s, sep) + [""]
  {
    var parts := Split(s, sep);
    SplitPiecesNoSep(s, sep);
    JoinSplit(s, sep);
    JoinAppend(parts, sep, "");
    assert Join(parts + [""], sep) == s + [sep];
    assert forall i :: 0 <= i < |parts + [""]| ==> sep !in (parts + [""])[i] by {
      forall i | 0 <= i < |parts + [""]|
        ensures sep !in (parts + [""])[i]
      {
        if i < |parts| {
          assert (parts + [""])[i] == parts[i];
        }
      }
    }
    SplitJoin(parts + [""], sep);
  }

  /** No piece of a split contains the separator. */
  lemma {:induction false} SplitPiecesNoSep(s: string, sep: char)
    ensures forall i :: 0 <= i < |Split(s, sep)| ==> sep !in Split(s, sep)[i]
    decreases |s|
  {
    if sep in s {
      var i := IndexOf(s, sep);
      SplitPiecesNoSep(s[i + 1..], sep);
      SplitUnfold(s, sep);
      assert forall j :: 0 <= j < i ==> s[..i][j] == s[j];
    }
  }

  /** Joining one more piece appends the separator and that piece. */
  lemma {:induction false} JoinAppend(parts: seq<string>, sep: char, x: string)
    requires |parts| >= 1
    ensures Join(parts + [x], sep) == Join(parts, sep) + [sep] + x
    decreases |parts|
  {
    if |parts| > 1 {
      JoinAppend(parts[1..], sep, x);
      assert (parts + [x])[1..] == parts[1..] + [x];
    }
  }

  lemma SplitUnfold(s: string, sep: char)
    requires sep in s
    ensures var i := IndexOf(s, sep); Split(s, sep) == [s[..i]] + Split(s[i + 1..], sep)
  {
  }

  /** Number of whitespace characters at the start of `s`. */
  function LeadingSpaces(s: string): (n: nat)
    ensures n <= |s| && (n == |s| || !IsSpace(s[n]))
    ensures forall i :: 0 <= i < n ==> IsSpace(s[i])
    decreases |s|
  {
    if s == [] || !IsSpace(s[0]) then 0
    else
      var n := 1 + LeadingSpaces(s[1..]);
      assert forall i :: 1 <= i < n ==> s[i] == s[1..][i - 1];
      n
  }

  /** Number of whitespace characters at the end of `s`. */
  function TrailingSpaces(s: string): (n: nat)
    ensures n <= |s| && (n == |s| || !IsSpace(s[|s| - 1 - n]))
    ensures forall i :: |s| - n <= i < |s| ==> IsSpace(s[i])
    decreases |s|
  {
    if s == [] || !IsSpace(s[|s| - 1]) then 0
    else
      var n := 1 + TrailingSpaces(s[..|s| - 1]);
      assert forall i :: |s| - n <= i < |s| - 1 ==> s[i] == s[..|s| - 1][i];
      n
  }

  /** `lstrip()`. */
  function StripLeft(s: string): (r: string)
    ensures |r| <= |s| && r == s[|s| - |r|..]
    ensures r == [] || !IsSpace(r[0])
    ensures forall i :: 0 <= i < |s| - |r| ==> IsSpace(s[i])
  {
    s[LeadingSpaces(s)..]
  }

  /** `rstrip()`. */
  function StripRight(s: string): (r: string)
    ensures |r| <= |s| && r == s[..|r|]
    ensures r == [] || !IsSpace(r[|r| - 1])
    ensures forall i :: |r| <= i < |s| ==> IsSpace(s[i])
  {
    s[..|s| - TrailingSpaces(s)]
  }

  /** `strip()`: the string without leading and trailing whitespace. */
  function Strip(s: string): (r: string)
    ensures |r| <= |s|
    ensures r != [] ==> !IsSpace(r[0]) && !IsSpace(r[|r| - 1])
  {
    var left := StripLeft(s);
    var r := StripRight(left);
    assert r != [] ==> r[0] == left[0];
    r
  }

  /** `strip()` keeps one contiguous slice and removes only whitespace on
      either side of it. */
  lemma StripSlice(s: string)
    ensures exists i, j ::
      && 0 <= i <= j <= |s| && Strip(s) == s[i..j]
      && (forall k :: 0 <= k < i ==> IsSpace(s[k]))
      && (forall k :: j <= k < |s| ==> IsSpace(s[k]))
  {
    var left := StripLeft(s);
    var r := StripRight(left);
    var i := |s| - |left|;
    var j := i + |r|;
    assert Strip(s) == r;
    assert left == s[i..] && r == left[..|r|];
    assert r == s[i..j];
    forall k | j <= k < |s|
      ensures IsSpace(s[k])
    {
      assert s[k] == left[k - i];
    }
  }

  /** A string that neither starts nor ends with whitespace is its own
      `strip()`. */
  lemma StripUnchanged(s: string)
    requires s == [] || (!IsSpace(s[0]) && !IsSpace(s[|s| - 1]))
    ensures Strip(s) == s
  {
  }

  /** A decimal literal as Python's `int` reads it: a digit, then either
      nothing or an optional single underscore followed by another literal;
      so underscores only ever stand alone between two digits. */
  predicate ValidDigits(d: string)
    decreases |d|
  {
    && d != [] && IsDigit(d[0])
    && (|d| == 1 || if d[1] == '_' then ValidDigits(d[2..]) else ValidDigits(d[1..]))
  }

  /** A literal consists of digits and underscores. */
  lemma {:induction false} ValidDigitsChars(d: string)
    requires ValidDigits(d)
    ensures DigitsOrUnderscores(d)
    decreases |d|
  {
    if |d| > 1 {
      var k := if d[1] == '_' then 2 else 1;
      ValidDigitsChars(d[k..]);
      assert forall i :: k <= i < |d| ==> d[i] == d[k..][i - k];
    }
  }

  /** A non-empty run of digits is a literal. */
  lemma {:induction false} AllDigitsValid(d: string)
    requires d != [] && forall i :: 0 <= i < |d| ==> IsDigit(d[i])
    ensures ValidDigits(d)
    decreases |d|
  {
    if |d| > 1 {
      assert d[1..][0] == d[1];
      assert forall i :: 0 <= i < |d| - 1 ==> d[1..][i] == d[i + 1];
      AllDigitsValid(d[1..]);
    }
  }

  predicate DigitsOrUnderscores(d: string) {
    forall i :: 0 <= i < |d| ==> IsDigit(d[i]) || d[i] == '_'
  }

  function DigitValue(c: char): (v: nat)
    requires IsDigit(c)
    ensures v < 10
  {
    (c as int) - ('0' as int)
  }

  function DigitChar(v: nat): (c: char)
    requires v < 10
    ensures IsDigit(c) && DigitValue(c) == v
  {
    ('0' as int + v) as char
  }

  /** The value of a run of digits and underscores, underscores skipped. */
  function DigitsValue(d: string): nat
    requires DigitsOrUnderscores(d)
    decreases |d|
  {
    if d == [] then 0
    else if d[|d| - 1] == '_' then DigitsValue(d[..|d| - 1])
    else DigitsValue(d[..|d| - 1]) * 10 + DigitValue(d[|d| - 1])
  }

  /** `int(s)` in base 10: surrounding whitespace ignored, an optional sign,
      then a decimal literal; `None` where Python raises `ValueError`. */
  function ParseInt(s: string): (r: Option<int>)
    ensures r.Some? ==> Strip(s) != []
  {
    var t := Strip(s);
    if t != [] && (t[0] == '+' || t[0] == '-') then
      var body := t[1..];
      if ValidDigits(body) then
        ValidDigitsChars(body);
        var v: int := DigitsValue(body);
        Some(if t[0] == '-' then -v else v)
      else None
    else if ValidDigits(t) then ValidDigitsChars(t); Some(DigitsValue(t))
    else None
  }

  /** What `int` accepts: once stripped, an optional sign, then a decimal
      literal (so it ends in a digit and its underscores stand alone between
      digits); only a leading `-` gives a negative value. Together with
      `ParseIntLiteral`, which gives the value of every such text, this
      says exactly what `int` reads. */
  lemma ParseIntShape(s: string)
    ensures ParseInt(s).Some? ==> var t := Strip(s);
      && t != [] && (IsDigit(t[0]) || t[0] == '+' || t[0] == '-') && IsDigit(t[|t| - 1])
      && ValidDigits(if t[0] == '+' || t[0] == '-' then t[1..] else t)
      && (forall i :: 0 < i < |t| ==> IsDigit(t[i]) || t[i] == '_')
      && (ParseInt(s).value < 0 ==> t[0] == '-')
  {
    var t := Strip(s);
    if ParseInt(s).Some? {
      if t[0] == '+' || t[0] == '-' {
        var body := t[1..];
        ValidDigitsChars(body);
        LiteralEnds(body);
        assert forall i :: 0 < i < |t| ==> t[i] == body[i - 1];
      } else {
        ValidDigitsChars(t);
        LiteralEnds(t);
      }
    }
  }

  predicate AllSpace(w: string) {
    forall i :: 0 <= i < |w| ==> IsSpace(w[i])
  }

  /** Whitespace before a text that does not start with whitespace is
      exactly what `lstrip()` removes. */
  lemma StripLeftPadded(w: string, u: string)
    requires AllSpace(w) && (u == [] || !IsSpace(u[0]))
    ensures StripLeft(w + u) == u
  {
    var s := w + u;
    var n := |s| - |StripLeft(s)|;
    assert forall i :: 0 <= i < |w| ==> s[i] == w[i];
    if u != [] {
      assert s[|w|] == u[0];
    }
    assert n == |w|;
  }

  /** Whitespace after a text that does not end with whitespace is exactly
      what `rstrip()` removes. */
  lemma StripRightPadded(u: string, w: string)
    requires AllSpace(w) && (u == [] || !IsSpace(u[|u| - 1]))
    ensures StripRight(u + w) == u
  {
    var s := u + w;
    var n := |StripRight(s)|;
    assert forall i :: 0 <= i < |w| ==> s[|u| + i] == w[i];
    if u != [] {
      assert s[|u| - 1] == u[|u| - 1];
    }
    assert n == |u|;
  }

  /** `strip()` removes exactly the whitespace padding around a text that
      neither starts nor ends with whitespace. */
  lemma StripPadded(w1: string, m: string, w2: string)
    requires AllSpace(w1) && AllSpace(w2)
    requires m != [] && !IsSpace(m[0]) && !IsSpace(m[|m| - 1])
    ensures Strip(w1 + m + w2) == m
  {
    assert w1 + m + w2 == w1 + (m + w2);
    StripLeftPadded(w1, m + w2);
    StripRightPadded(m, w2);
  }

  /** Every text `int` accepts reads as its value: any whitespace around an
      optional `+` or `-` and a decimal literal, the sign negating only when
      it is `-`. */
  lemma ParseIntLiteral(w1: string, sign: string, d: string, w2: string)
    requires AllSpace(w1) && AllSpace(w2)
    requires sign == "" || sign == "+" || sign == "-"
    requires ValidDigits(d)
    ensures DigitsOrUnderscores(d)
    ensures ParseInt(w1 + sign + d + w2) == Some(if sign == "-" then -(DigitsValue(d) as int) else DigitsValue(d))
  {
    ValidDigitsChars(d);
    var s := w1 + sign + d + w2;
    StripSignedLiteral(w1, sign, d, w2);
    if sign == "" {
      LiteralEnds(d);
      ParseStripped(s, d);
    } else {
      assert sign + d == [sign[0]] + d;
      ParseStrippedSigned(s, sign[0], d);
    }
  }

  /** `strip()` of a padded, optionally signed literal is the sign and the
      literal. */
  lemma StripSignedLiteral(w1: string, sign: string, d: string, w2: string)
    requires AllSpace(w1) && AllSpace(w2)
    requires sign == "" || sign == "+" || sign == "-"
    requires ValidDigits(d)
    ensures Strip(w1 + sign + d + w2) == sign + d
  {
    SignedLiteralEnds(sign, d);
    ConcatAssoc(w1, sign, d);
    StripPadded(w1, sign + d, w2);
  }

  /** An optionally signed literal neither starts nor ends with
      whitespace. */
  lemma SignedLiteralEnds(sign: string, d: string)
    requires sign == "" || sign == "+" || sign == "-"
    requires ValidDigits(d)
    ensures var m := sign + d;
      m != [] && !IsSpace(m[0]) && !IsSpace(m[|m| - 1])
  {
    LiteralEnds(d);
    var m := sign + d;
    assert m[0] == (if sign == "" then d[0] else sign[0]);
    assert m[|m| - 1] == d[|d| - 1];
    NotSpace(m[0]);
    NotSpace(m[|m| - 1]);
  }

  lemma ConcatAssoc(a: string, b: string, c: string)
    ensures a + b + c == a + (b + c)
  {
  }

  /** Digits and signs are not whitespace. */
  lemma NotSpace(c: char)
    requires IsDigit(c) || c == '+' || c == '-'
    ensures !IsSpace(c)
  {
  }

  /** A literal after whitespace reads as its value. */
  lemma ParseAfterSpaces(w: string, d: string)
    requires AllSpace(w) && ValidDigits(d)
    ensures DigitsOrUnderscores(d)
    ensures ParseInt(w + d) == Some(DigitsValue(d) as int)
  {
    ValidDigitsChars(d);
    LiteralEnds(d);
    assert w + d + [] == w + d;
    StripPadded(w, d, []);
    ParseStripped(w + d, d);
  }

  /** Text whose `strip()` is a literal reads as the literal's value. */
  lemma ParseStripped(s: string, d: string)
    requires Strip(s) == d && ValidDigits(d) && DigitsOrUnderscores(d)
    requires IsDigit(d[0])
    ensures ParseInt(s) == Some(DigitsValue(d) as int)
  {
  }

  /** Text whose `strip()` is a sign and a literal reads as the literal's
      value, negated for `-`. */
  lemma ParseStrippedSigned(s: string, c: char, d: string)
    requires Strip(s) == [c] + d && (c == '+' || c == '-')
    requires ValidDigits(d) && DigitsOrUnderscores(d)
    ensures ParseInt(s) == Some(if c == '-' then -(DigitsValue(d) as int) else DigitsValue(d))
  {
    DropSign(c, d);
  }

  /** Decimal digits of a natural number, without leading zeros. */
  function NatToString(n: nat): (s: string)
    ensures s != [] && forall i :: 0 <= i < |s| ==> IsDigit(s[i])
    decreases n
  {
    if n < 10 then [DigitChar(n)] else NatToString(n / 10) + [DigitChar(n % 10)]
  }

  /** `str(n)` for an integer. */
  function IntToString(n: int): (s: string)
    ensures s != [] && (IsDigit(s[0]) || s[0] == '-') && IsDigit(s[|s| - 1])
    ensures forall i :: 0 <= i < |s| ==> IsDigit(s[i]) || s[i] == '-'
    ensures forall i :: 0 < i < |s| ==> IsDigit(s[i])
    ensures s[0] == '-' <==> n < 0
  {
    if n < 0 then
      var d := NatToString(-n);
      assert forall i :: 0 < i < |d| + 1 ==> ("-" + d)[i] == d[i - 1];
      "-" + d
    else NatToString(n)
  }

  lemma {:induction false} NatToStringValue(n: nat)
    ensures DigitsValue(NatToString(n)) == n
    decreases n
  {
    if n >= 10 {
      NatToStringValue(n / 10);
      var s := NatToString(n);
      assert s[..|s| - 1] == NatToString(n / 10);
    }
  }

  /** The digits of a natural form a decimal literal of that value. */
  lemma NatToStringValid(n: nat)
    ensures ValidDigits(NatToString(n)) && DigitsOrUnderscores(NatToString(n))
    ensures DigitsValue(NatToString(n)) == n
  {
    NatToStringValue(n);
    AllDigitsValid(NatToString(n));
  }

  /** `int` reads back what `str` writes. */
  lemma ParseIntToString(n: int)
    ensures ParseInt(IntToString(n)) == Some(n)
  {
    if n < 0 {
      ParseNegativeToString(n);
    } else {
      NatToStringValid(n);
      ParseLiteral(NatToString(n), IntToString(n), n);
    }
  }

  lemma ParseNegativeToString(n: int)
    requires n < 0
    ensures ParseInt(IntToString(n)) == Some(n)
  {
    NatToStringValid(-n);
    ParseNegativeLiteral(NatToString(-n), IntToString(n), n);
  }

  /** A literal on its own reads as its value. */
  lemma ParseLiteral(d: string, t: string, v: int)
    requires ValidDigits(d) && t == d
    requires DigitsOrUnderscores(d) && v == DigitsValue(d)
    ensures ParseInt(t) == Some(v)
  {
    LiteralEnds(d);
    StripUnchanged(d);
  }

  /** A literal after a minus sign reads as its negated value. */
  lemma ParseNegativeLiteral(d: string, t: string, v: int)
    requires ValidDigits(d) && t == "-" + d
    requires DigitsOrUnderscores(d) && v == -(DigitsValue(d) as int)
    ensures ParseInt(t) == Some(v)
  {
    LiteralEnds(d);
    assert t[|t| - 1] == d[|d| - 1];
    StripUnchanged(t);
    DropSign('-', d);
  }

  /** Dropping the first character of `[c] + d` leaves `d`. */
  lemma DropSign(c: char, d: string)
    ensures ([c] + d)[1..] == d
  {
  }

  /** A literal starts and ends with a digit. */
  lemma {:induction false} LiteralEnds(d: string)
    requires ValidDigits(d)
    ensures IsDigit(d[0]) && IsDigit(d[|d| - 1])
    decreases |d|
  {
    if |d| > 1 {
      var k := if d[1] == '_' then 2 else 1;
      LiteralEnds(d[k..]);
    }
  }
}

=== FILE: tx_index.dfy ===
/**
 The short-id transaction index of a Bitcoin gateway: the three maps kept by
 the transaction service (short id to hash, hash to short ids, hash to
 contents) and the map mirrored into the C++ extension (hash to the most
 recently assigned short id).

 The Python base class that owns the first three maps is not part of this
 model; its `assign_short_id` and `get_txid` are given the smallest
 behaviour the gateway code relies on.
 */
module TxIndex {
  import opened Common

  type ShortId = nat

  type TxHash = Bytes

  /** What `get_txid` answers for a hash that has no short id. */
  const NoShortId: int := -1

  datatype Index = Index(
    sidToHash: map<ShortId, TxHash>,
    hashToSids: map<TxHash, set<ShortId>>,
    contents: map<TxHash, Bytes>,
    mirror: map<TxHash, ShortId>)

  const Empty: Index := Index(map[], map[], map[], map[])

  /** The consistency invariant of the index: a short id's hash lists that
      short id among its own, and no hash keeps an empty set of short ids. */
  predicate Consistent(idx: Index) {
    && (forall s :: s in idx.sidToHash ==>
          idx.sidToHash[s] in idx.hashToSids && s in idx.hashToSids[idx.sidToHash[s]])
    && (forall h :: h in idx.hashToSids ==> idx.hashToSids[h] != {})
  }

  /** Every hash with short ids also has an entry in the mirror map. */
  predicate MirrorCovers(idx: Index) {
    forall h :: h in idx.hashToSids ==> h in idx.mirror
  }

  /** The two-way form: the hash-to-short-ids sets are exactly the inverse of
      the short-id-to-hash map. */
  predicate TwoWay(idx: Index) {
    && Consistent(idx)
    && (forall h, s :: h in idx.hashToSids && s in idx.hashToSids[h] ==>
          s in idx.sidToHash && idx.sidToHash[s] == h)
  }

  predicate HasShortId(idx: Index, h: TxHash) {
    h in idx.hashToSids && idx.hashToSids[h] != {}
  }

  lemma {:induction false} LeastWitness(s: set<ShortId>) returns (m: ShortId)
    requires s != {}
    ensures m in s && forall y :: y in s ==> m <= y
  {
    var x :| x in s;
    if s == {x} {
      m := x;
    } else {
      var rest := LeastWitness(s - {x});
      m := if x <= rest then x else rest;
      forall y | y in s ensures m <= y {
        if y != x {
          assert y in s - {x};
        }
      }
    }
  }

  lemma LeastExists(s: set<ShortId>)
    requires s != {}
    ensures exists m :: m in s && forall y :: y in s ==> m <= y
  {
    var m := LeastWitness(s);
  }

  /** The least member of a non-empty set of short ids. */
  function Least(s: set<ShortId>): (m: ShortId)
    requires s != {}
    ensures m in s
    ensures forall y :: y in s ==> m <= y
  {
    LeastExists(s);
    var m :| m in s && forall y :: y in s ==> m <= y; m
  }

  /** `get_txid`: a short id of the hash, or -1 when it has none. Which member
      the base class picks is not visible; the model picks the least. */
  function GetTxid(idx: Index, h: TxHash): (r: int)
    ensures r == NoShortId <==> !HasShortId(idx, h)
    ensures r != NoShortId ==> 0 <= r && h in idx.hashToSids && r in idx.hashToSids[h]
  {
    if HasShortId(idx, h) then Least(idx.hashToSids[h]) else NoShortId
  }

  /** `assign_short_id` of the Bitcoin service: the base class binds the short
      id to the hash and adds it to the hash's set; the override then records
      the short id in the mirror map. */
  function AssignShortId(idx: Index, h: TxHash, s: ShortId): (r: Index)
    ensures s in r.sidToHash && r.sidToHash[s] == h
    ensures h in r.hashToSids && s in r.hashToSids[h]
    ensures h in r.mirror && r.mirror[h] == s
    ensures HasShortId(r, h)
    ensures forall t :: t != s ==> Get(r.sidToHash, t) == Get(idx.sidToHash, t)
    ensures forall g :: g != h ==> Get(r.hashToSids, g) == Get(idx.hashToSids, g)
    ensures forall g :: g != h ==> Get(r.mirror, g) == Get(idx.mirror, g)
    ensures h in idx.hashToSids ==> r.hashToSids[h] == idx.hashToSids[h] + {s}
    ensures h !in idx.hashToSids ==> r.hashToSids[h] == {s}
    ensures r.contents == idx.contents
  {
    var old_sids := if h in idx.hashToSids then idx.hashToSids[h] else {};
    Index(
      idx.sidToHash[s := h],
      idx.hashToSids[h := old_sids + {s}],
      idx.contents,
      idx.mirror[h := s])
  }

  lemma AssignPreservesConsistent(idx: Index, h: TxHash, s: ShortId)
    requires Consistent(idx) && MirrorCovers(idx)
    ensures Consistent(AssignShortId(idx, h, s))
    ensures MirrorCovers(AssignShortId(idx, h, s))
  {
    var r := AssignShortId(idx, h, s);
    forall t | t in r.sidToHash
      ensures r.sidToHash[t] in r.hashToSids && t in r.hashToSids[r.sidToHash[t]]
    {
      if t != s {
        assert Get(r.sidToHash, t) == Get(idx.sidToHash, t);
        var g := idx.sidToHash[t];
        if g != h {
          assert Get(r.hashToSids, g) == Get(idx.hashToSids, g);
        }
      }
    }
    forall g | g in r.hashToSids ensures r.hashToSids[g] != {} && g in r.mirror {
      if g != h {
        assert Get(r.hashToSids, g) == Get(idx.hashToSids, g);
        assert Get(r.mirror, g) == Get(idx.mirror, g);
      }
    }
  }

  /** Assigning a short id that is unbound, or already bound to the same
      hash, keeps the two-way invariant. */
  lemma AssignPreservesTwoWay(idx: Index, h: TxHash, s: ShortId)
    requires TwoWay(idx) && MirrorCovers(idx)
    requires s !in idx.sidToHash || idx.sidToHash[s] == h
    ensures TwoWay(AssignShortId(idx, h, s))
  {
    AssignPreservesConsistent(idx, h, s);
    var r := AssignShortId(idx, h, s);
    forall g, t | g in r.hashToSids && t in r.hashToSids[g]
      ensures t in r.sidToHash && r.sidToHash[t] == g
    {
      if g != h {
        assert Get(r.hashToSids, g) == Get(idx.hashToSids, g);
        assert Get(r.sidToHash, t) == Get(idx.sidToHash, t);
      }
    }
  }

  /** Assigning the same pair twice is the same as assigning it once. */
  lemma AssignIdempotent(idx: Index, h: TxHash, s: ShortId)
    ensures AssignShortId(AssignShortId(idx, h, s), h, s) == AssignShortId(idx, h, s)
  {
    var once := AssignShortId(idx, h, s);
    assert once.hashToSids[h] + {s} == once.hashToSids[h];
  }

  /** Binding a short id to a second hash leaves it in the first hash's set:
      the assignment adds without detaching, so the two-way invariant does not
      survive a rebinding. */
  lemma RebindLeavesStaleSid()
    ensures var once := AssignShortId(Empty, [1], 7);
      var twice := AssignShortId(once, [2], 7);
      && TwoWay(once)
      && !TwoWay(twice)
      && 7 in twice.hashToSids[[1]] && twice.sidToHash[7] == [2]
  {
    var a: TxHash := [1];
    var b: TxHash := [2];
    var once := AssignShortId(Empty, a, 7);
    var twice := AssignShortId(once, b, 7);
    assert a != b by {
      assert a[0] != b[0];
    }
    assert Get(twice.hashToSids, a) == Get(once.hashToSids, a);
  }

  /** Outcome of `_remove_transaction_by_short_id`: it returns, or it raises
      `KeyError` after part of its updates have been applied. */
  datatype Removal = Removed(index: Index) | KeyError(partial: Index)

  /** `_remove_transaction_by_short_id`: forget a short id, and when it was
      the last short id of its hash, purge the hash's set, contents and mirror
      entry. */
  function RemoveTransactionByShortId(idx: Index, s: ShortId): (r: Removal)
    ensures s !in idx.sidToHash ==> r == Removed(idx)
    ensures r.Removed? ==> s !in r.index.sidToHash
    ensures Consistent(idx) && MirrorCovers(idx) ==> r.Removed?
    ensures r.Removed? ==> forall t :: t != s ==> Get(r.index.sidToHash, t) == Get(idx.sidToHash, t)
    ensures r.Removed? && s in idx.sidToHash ==>
      var h := idx.sidToHash[s];
      && (forall g :: g != h ==> Get(r.index.hashToSids, g) == Get(idx.hashToSids, g))
      && (forall g :: g != h ==> Get(r.index.contents, g) == Get(idx.contents, g))
      && (forall g :: g != h ==> Get(r.index.mirror, g) == Get(idx.mirror, g))
    ensures r.Removed? && s in idx.sidToHash && idx.sidToHash[s] in idx.hashToSids ==>
      var h := idx.sidToHash[s];
      if |idx.hashToSids[h]| == 1 then
        h !in r.index.hashToSids && h !in r.index.contents && h !in r.index.mirror
      else
        && h in r.index.hashToSids
        && r.index.hashToSids[h] == idx.hashToSids[h] - {s}
        && Get(r.index.contents, h) == Get(idx.contents, h)
        && Get(r.index.mirror, h) == Get(idx.mirror, h)
    ensures r.Removed? && s in idx.sidToHash && idx.sidToHash[s] !in idx.hashToSids ==>
      r.index == idx.(sidToHash := idx.sidToHash - {s})
  {
    if s !in idx.sidToHash then Removed(idx)
    else
      var h := idx.sidToHash[s];
      var popped := idx.(sidToHash := idx.sidToHash - {s});
      if h !in idx.hashToSids then Removed(popped)
      else
        var sids := idx.hashToSids[h];
        if |sids| == 1 then
          var unmapped := popped.(hashToSids := idx.hashToSids - {h});
          if h !in idx.mirror then KeyError(unmapped)
          else Removed(unmapped.(mirror := idx.mirror - {h}, contents := idx.contents - {h}))
        else if s !in sids then KeyError(popped)
        else Removed(popped.(hashToSids := idx.hashToSids[h := sids - {s}]))
  }

  /** Removal keeps the one-way invariant and the mirror coverage. */
  lemma RemovePreservesConsistent(idx: Index, s: ShortId)
    requires Consistent(idx) && MirrorCovers(idx)
    ensures RemoveTransactionByShortId(idx, s).Removed?
    ensures Consistent(RemoveTransactionByShortId(idx, s).index)
    ensures MirrorCovers(RemoveTransactionByShortId(idx, s).index)
  {
    var r := RemoveTransactionByShortId(idx, s).index;
    if s in idx.sidToHash {
      var h := idx.sidToHash[s];
      var sids := idx.hashToSids[h];
      if |sids| == 1 {
        SingletonIs(sids, s);
      }
      forall t | t in r.sidToHash
        ensures r.sidToHash[t] in r.hashToSids && t in r.hashToSids[r.sidToHash[t]]
      {
        assert Get(r.sidToHash, t) == Get(idx.sidToHash, t);
        var g := idx.sidToHash[t];
        if g == h {
          assert t in sids && t != s;
        } else {
          assert Get(r.hashToSids, g) == Get(idx.hashToSids, g);
        }
      }
      forall g | g in r.hashToSids ensures r.hashToSids[g] != {} && g in r.mirror {
        if g == h {
          assert |sids| != 1;
          SizeAboveOne(sids, s);
        } else {
          assert Get(r.hashToSids, g) == Get(idx.hashToSids, g);
          assert Get(r.mirror, g) == Get(idx.mirror, g);
        }
      }
    }
  }

  /** Removal also keeps the two-way invariant. */
  lemma RemovePreservesTwoWay(idx: Index, s: ShortId)
    requires TwoWay(idx) && MirrorCovers(idx)
    ensures TwoWay(RemoveTransactionByShortId(idx, s).index)
  {
    RemovePreservesConsistent(idx, s);
    var r := RemoveTransactionByShortId(idx, s).index;
    if s in idx.sidToHash {
      var h := idx.sidToHash[s];
      forall g, t | g in r.hashToSids && t in r.hashToSids[g]
        ensures t in r.sidToHash && r.sidToHash[t] == g
      {
        if g == h {
          assert t in idx.hashToSids[h] && t != s;
        } else {
          assert Get(r.hashToSids, g) == Get(idx.hashToSids, g);
          assert t != s;
        }
        assert Get(r.sidToHash, t) == Get(idx.sidToHash, t);
      }
    }
  }

  /** Under the invariant, removing the only short id of a hash leaves the
      hash with no short id and no contents. */
  lemma {:induction false} RemoveLastPurges(idx: Index, s: ShortId)
    requires Consistent(idx) && MirrorCovers(idx)
    requires s in idx.sidToHash && idx.hashToSids[idx.sidToHash[s]] == {s}
    ensures var r := RemoveTransactionByShortId(idx, s).index;
      && !HasShortId(r, idx.sidToHash[s])
      && idx.sidToHash[s] !in r.contents
      && GetTxid(r, idx.sidToHash[s]) == NoShortId
  {
    assert |{s}| == 1;
  }

  lemma SingletonIs(sids: set<ShortId>, s: ShortId)
    requires |sids| == 1 && s in sids
    ensures sids == {s}
  {
    if sids - {s} != {} {
      var t :| t in sids - {s};
      assert {s, t} <= sids;
      assert |{s, t}| == 2;
      SubsetCard({s, t}, sids);
    }
  }

  lemma SizeAboveOne(sids: set<ShortId>, s: ShortId)
    requires |sids| != 1 && s in sids
    ensures sids - {s} != {}
  {
    assert sids == (sids - {s}) + {s};
  }

  lemma SubsetCard(a: set<ShortId>, b: set<ShortId>)
    requires a <= b
    ensures |a| <= |b|
  {
    assert b == a + (b - a);
  }
}
